=== FILE: README.md ===
# map_register_v3 front-end core in Dafny

This project models the data-handling core of the map_register_v3 web front end:

- **Checksum-gated sync.** The icon-tag store and the marker store refresh their IndexedDB tables from compressed remote snapshots. Each snapshot (for markers, each numbered shard of it) is guarded by an MD5 checksum kept in the shared `md5` table: an unchanged checksum skips the download. A clear empties the table and drops that store's checksum rows. A background timer repeats the refresh.
- **Sprite icon mapping.** `IconManager.initIconMap` numbers the cached icon tags and lays out four icon states per item on one row of a sprite sheet.
- **Overlays.** `getOverlaysFrom` turns every overlay chunk into a bitmap layer. It decides visibility from the overlay settings and picks the tint colour.
- **Navigation guard.** `beforeEachGuard` decides every route change: white list, token, route table and permission.
- **Item list.** `useItemList` covers the id-to-item map, the paged and filtered query, the sort by `sortIndex` and the item cache. Also modelled: the confirmation gate of `useItemDelete` and the `editSame` flag of `useItemUpdate`.
- **Marker rendering.** `useMarkerRender` replaces the rendered marker group and flies to the centre of the markers' bounding box.
- **HTTP client.** The axios interceptors of `request.ts`: which statuses resolve, the headers every request carries, and the response body.

Modules and files:

| module | file | what |
|---|---|---|
| `Common` | common.dfy | `Option`, decimal rendering of shard numbers, string prefixes, the notice a refresh ends with |
| `KeyedTable` | keyed_table.dfy | Dexie `bulkPut` (upsert by primary key) and prefix deletion |
| `Database` | database.dfy | the three tables, remote fetch outcomes, checksum row ids |
| `Schedule` | schedule.dfy | the background-update timer slot shared by both stores |
| `IconTagStore` | icon_tag_store.dfy | `useIconTagStore` |
| `MarkerStore` | marker_store.dfy | `useMarkerStore` |
| `IconManager` | icon_manager.dfy | `IconManager.initIconMap` |
| `Overlays` | overlays.dfy | `getOverlaysFrom` |
| `NavigationGuard` | navigation_guard.dfy | `beforeEachGuard` |
| `Request` | request.dfy | the axios service |
| `ItemList` | item_list.dfy | `useItemList`, `useItemDelete`, `useItemUpdate` |
| `MarkerRender` | marker_render.dfy | `useMarkerRender` |

The stores' effects on IndexedDB are pure functions from one database value `Db` to the next. Everything the code receives from outside is an explicit input:

- the remote checksums and the decoded payloads;
- the clock and the settings;
- the token;
- the route table;
- the regular-expression test;
- the coordinate projection;
- the worker's sprite image.

Timers are modelled as a slot plus the set of armed browser timers. The intended invariant is that at most one background update is ever waiting. Each store call keeps it when it runs alone. It breaks when two `backgroundUpdate` calls are in flight at once: both check the slot before either re-arms, and two timers end up armed (`Schedule.OverlappingUpdatesLeak`). The marker store reaches this through its own `reCreateBackgroundUpdate` while a timer's refresh is still running (`MarkerStore.ReCreateDuringTimerRefreshLeaks`). Once a timer has leaked, `clearBackgroundUpdate` cannot reach it: it cancels only the timer the slot names, so the orphan stays armed (`Schedule.ClearAfterLeakLeavesTimer`).

### Checksum write order

The icon-tag store says in its own comment (src/stores/iconTag.ts:64) that the local MD5 is updated only after the tags were stored successfully. It writes the checksum row last, after the clear and the `bulkPut` (src/stores/iconTag.ts:62-65). `IconTagStore.ChecksumOnlyAfterTags` proves that this holds even when a write rejects: a new checksum is only ever recorded together with the upserted tags, and after any rejected write the checksum stays old, so a retry downloads the snapshot again and, without a fault, applies it.

The marker store orders its writes the other way. `_updateMarkerInfo` writes a shard's checksum right after the download (src/stores/marker.ts:57), before decompression, parsing, and the `bulkPut` transaction (src/stores/marker.ts:74-76). The model follows the code, and two lemmas prove the consequences:

- `MarkerStore.DecodeFailureCommitsChecksum`: a shard whose payload downloads but does not decode fails the refresh and stores none of its markers, yet its new checksum is recorded, so every later refresh against that checksum skips the shard.
- `MarkerStore.FailedPutLosesMarkers`: when every shard decodes but the marker transaction rejects, the table keeps its old rows while all checksums are already recorded, so a later refresh against the same list writes nothing.

## Model

| member | source | states |
|---|---|---|
| `KeyedTable.BulkPut` | src/stores/iconTag.ts:63 | after `bulkPut`, the table holds the old rows whose key no row has, plus for every key in the rows the last row carrying it, and nothing else |
| `KeyedTable.BulkPutIdempotent` | src/stores/marker.ts:75 | putting the same rows twice is the same as putting them once |
| `KeyedTable.DeletePrefixed` | src/stores/iconTag.ts:99 | `where('id').startsWith(p).delete()` removes exactly the rows whose id starts with `p` and keeps the others' values |
| `Database.ShardKey` | src/stores/marker.ts:51 | the checksum row id `kind-index` starts with `kind-` |
| `Database.ShardKeyInjective` | src/stores/marker.ts:51 | distinct shard numbers give distinct checksum row ids |
| `Schedule.Interval` | src/stores/iconTag.ts:120 | the interval is the configured number of minutes times 60000 ms, 20 minutes when unset, and 0 for a setting of 0 |
| `Schedule.Cancel` | src/stores/iconTag.ts:110-113 | `clearBackgroundUpdate` empties the slot and disarms exactly the timer in it, and no other; when the slot names every armed timer (`Valid`), no timer is armed afterwards |
| `Schedule.Arm` | src/stores/iconTag.ts:120-125 | a fresh timer id goes in the slot; the end time is now plus `(autoUpdateInterval ?? 20) * 60000` |
| `Schedule.Fire` | src/stores/iconTag.ts:122-124 | a fired timer is no longer armed and its callback empties the slot |
| `Schedule.RestTime` | src/stores/iconTag.ts:31 | the rest time is 0 before any timer was armed; otherwise it is what remains until the end time |
| `Schedule.Begin` | src/stores/iconTag.ts:117-118 | the head of `backgroundUpdate` leaves the slot empty; a valid schedule then has no timer armed |
| `Schedule.OverlappingUpdatesLeak` | src/stores/iconTag.ts:116-125 | two calls that both pass the slot check before either re-arms leave two timers armed, and the slot no longer names every armed timer |
| `Schedule.ClearAfterLeakLeavesTimer` | src/stores/iconTag.ts:110-125 | after that leak, `clearBackgroundUpdate` empties the slot but the first call's timer stays armed |
| `Schedule.Rearm` | src/stores/iconTag.ts:117-125 | cancel-then-arm leaves exactly one armed timer, a new one, due one interval later |
| `Schedule.ArmingWithoutCancelLeaks` | src/stores/iconTag.ts:117-118 | without the cancel, two timers would be armed |
| `IconTagStore.UpdateIconTag` | src/stores/iconTag.ts:53-67 | an unchanged checksum gives 0 with no change. It fails iff the checksum request fails, or a changed snapshot does not download and decode, or one of its writes rejects; a failure never moves the checksum row. A rejected clear changes nothing, a rejected `bulkPut` leaves the table as the clear left it, and a rejected checksum put leaves the tags written. Otherwise the result is the snapshot size: the table is upserted (cleared first when the local table is larger), then the checksum is written |
| `IconTagStore.ChecksumOnlyAfterTags` | src/stores/iconTag.ts:62-65 | whenever a refresh leaves the new checksum recorded, it resolved with the snapshot size and the tags were upserted; after any rejected write the old checksum stays, and a retry that downloads the snapshot without a fault applies it and records the checksum |
| `IconTagStore.ClearedTableHoldsExactlySnapshot` | src/stores/iconTag.ts:60-63 | after clear-then-put, the table's tags are exactly the snapshot's, each under its own tag |
| `IconTagStore.UpsertKeepsLocalTags` | src/stores/iconTag.ts:60-63 | without the clear, every local tag survives, including tags the snapshot no longer has |
| `IconTagStore.SecondRefreshIsNoOp` | src/stores/iconTag.ts:55-65 | after a successful refresh, refreshing against the same checksum returns 0 and changes nothing, whatever its writes would do |
| `IconTagStore.UpdateAll` | src/stores/iconTag.ts:70-92 | an error notice is shown iff the refresh fails; a success notice with the count is shown iff notices are enabled and the refresh succeeds; `loading` ends false |
| `IconTagStore.ClearAll` | src/stores/iconTag.ts:95-107 | a rejected table clear changes nothing. Once the clear succeeded the tag table is empty. A rejected checksum deletion keeps every checksum row; otherwise exactly the `iconTag-` rows are dropped. Markers are untouched and `loading` ends false on every path |
| `IconTagStore.ClearAllForcesRefetch` | src/stores/iconTag.ts:98-99 | after a complete clear, no checksum matches, so the next refresh downloads. When a step rejects, a checksum matches exactly when it matched before |
| `IconTagStore.FailedChecksumDeleteStrandsTable` | src/stores/iconTag.ts:98-102 | when only the checksum deletion rejects, the table is empty, yet a refresh against the old checksum resolves to 0 and leaves it empty |
| `IconTagStore.ClearBackgroundUpdate` | src/stores/iconTag.ts:110-113 | the timer slot is empty; when the slot named every armed timer (`Valid`), nothing stays armed |
| `IconTagStore.BackgroundUpdate` | src/stores/iconTag.ts:116-126 | taken as one step: refresh, then exactly one timer is left armed, due one interval after now |
| `IconTagStore.OverlappingBackgroundUpdatesLeak` | src/stores/iconTag.ts:116-125 | two calls whose refreshes overlap leave two timers armed |
| `IconTagStore.ClearAfterOverlapLeavesTimer` | src/stores/iconTag.ts:110-125 | after two overlapping refreshes, `clearBackgroundUpdate` leaves one timer armed that the slot no longer names |
| `IconTagStore.OnTimer` | src/stores/iconTag.ts:122-125 | taken as one step: the fired timer is gone and exactly one new timer is armed |
| `MarkerStore.UpdateMarkerInfo` | src/stores/marker.ts:49-63 | an equal checksum skips the shard. A failed download writes nothing and rejects. A downloaded payload commits the checksum whether or not it decodes; it yields the markers only when it decodes |
| `MarkerStore.SyncShards` | src/stores/marker.ts:72 | all tasks resolve iff every changed shard decodes. Each changed, downloaded shard's row gets its new checksum, and no other row changes |
| `MarkerStore.Block` | src/stores/marker.ts:62 | a task appends something only for a changed shard in the list that decoded, and then exactly its decoded markers |
| `MarkerStore.MissionsMembers` | src/stores/marker.ts:62 | a marker is in the mission list iff one of the finished tasks appended it |
| `MarkerStore.MissionsFromChangedShards` | src/stores/marker.ts:62-72 | for every completion order of the shard tasks, the mission list holds exactly the decoded markers of the changed shards |
| `MarkerStore.NothingChangedNoMissions` | src/stores/marker.ts:50-53 | when no shard changed, the mission list stays empty whatever the completion order |
| `MarkerStore.NothingChangedSyncsNothing` | src/stores/marker.ts:50-53 | when no shard's checksum changed, nothing is downloaded or written |
| `MarkerStore.UpdateAll` | src/stores/marker.ts:66-96 | checksums are committed shard by shard as above, even when the refresh then fails. An error notice is shown iff some changed shard fails or the marker transaction rejects, and then the marker table is untouched. Otherwise the table is upserted with the mission list in the order the shard tasks completed, and the success notice carries its length. No marker is ever deleted. The missions are cleared and `loading` ends false |
| `MarkerStore.CompletionOrderDecidesDuplicate` | src/stores/marker.ts:62-76 | when two changed shards carry the same marker id, the stored row is the one of the shard that finished last, so the outcome depends on timing |
| `MarkerStore.FailedPutLosesMarkers` | src/stores/marker.ts:57-76 | a rejected marker transaction shows an error and leaves the table untouched, yet every checksum is recorded, so a later refresh against the same list changes nothing |
| `MarkerStore.SuccessRecordsEveryChecksum` | src/stores/marker.ts:57 | after a successful refresh, every shard's row holds the remote checksum |
| `MarkerStore.SecondRefreshIsNoOp` | src/stores/marker.ts:50-53 | a second refresh against the same checksum list leaves both tables unchanged, for any completion order, and reports no markers when its transaction succeeds |
| `MarkerStore.DecodeFailureCommitsChecksum` | src/stores/marker.ts:54-61 | a shard that downloads but fails to decode fails the refresh, stores none of its markers, and still records its checksum, so later refreshes skip it |
| `MarkerStore.TwoShardScenario` | src/stores/marker.ts:66-96 | remote `["a1","b2"]` against stored `["a1","old"]` fetches only shard 2, upserts its markers and leaves the rows `a1`, `b2`, whichever task finishes first |
| `MarkerStore.ClearAll` | src/stores/marker.ts:99-111 | a rejected table clear changes nothing. Once the clear succeeded the marker table is empty. A rejected checksum deletion keeps every checksum row; otherwise exactly the `marker-` rows are dropped. Icon tags are untouched and `loading` ends false on every path |
| `MarkerStore.ClearAllIsScoped` | src/stores/marker.ts:103 | a checksum row whose id does not start with `marker-` survives with its value, the icon tags' `iconTag-0` included, whether or not a step rejects; a complete clear drops every shard row |
| `MarkerStore.FailedChecksumDeleteStrandsMarkers` | src/stores/marker.ts:102-106 | when only the checksum deletion rejects, the marker table is empty, yet a refresh against the same MD5 list leaves the database unchanged |
| `MarkerStore.ClearBackgroundUpdate` | src/stores/marker.ts:114-117 | the timer slot is empty; when the slot named every armed timer (`Valid`), nothing stays armed |
| `MarkerStore.BackgroundUpdate` | src/stores/marker.ts:120-130 | taken as one step: the refresh runs iff `immediate`; then exactly one timer is armed, due one interval after now |
| `MarkerStore.ReCreateBackgroundUpdate` | src/stores/marker.ts:133-136 | taken as one step: nothing is downloaded; the schedule restarts with exactly one timer due one interval after now |
| `MarkerStore.ReCreateDuringTimerRefreshLeaks` | src/stores/marker.ts:120-136 | a `reCreateBackgroundUpdate` while a fired timer's refresh is still running leaves two timers armed once that refresh finishes |
| `MarkerStore.ClearAfterReCreateLeavesTimer` | src/stores/marker.ts:114-136 | after that leak, `clearBackgroundUpdate` cancels the timer the slot names and the recreate's timer stays armed |
| `MarkerStore.OnTimer` | src/stores/marker.ts:126-129 | taken as one step: the fired timer runs an immediate refresh; exactly one new timer is left armed |
| `IconManager.TagIndex` | src/pages/pageMapV2/core/IconManager.ts:50-53 | each tag is numbered with the position of its last row among the enumerated rows |
| `IconManager.TagIndexInjective` | src/pages/pageMapV2/core/IconManager.ts:50-53 | every enumerated tag is numbered, and two different tags never share a sprite row |
| `IconManager.IconMapping` | src/pages/pageMapV2/core/IconManager.ts:56-71 | the keys are exactly the four states of each item whose tag is numbered. Each key's rectangle comes from the last such item with that id: row `index * height`, column `state * width`, anchor `height - border` |
| `IconManager.FourKeysPerItem` | src/pages/pageMapV2/core/IconManager.ts:66-69 | a mapped item has all four state keys |
| `IconManager.UnmappedItemsHaveNoKeys` | src/pages/pageMapV2/core/IconManager.ts:57-59 | an item without a numbered tag gets no key |
| `IconManager.MappingGeometry` | src/pages/pageMapV2/core/IconManager.ts:60-69 | every state of a mapped item has a rectangle; it has the icon size, sits in its state's column and on some tag's row, and is anchored `border` above its bottom |
| `IconManager.CellsDoNotOverlap` | src/pages/pageMapV2/core/IconManager.ts:60-69 | with positive sizes, rectangles of different rows or different states are disjoint |
| `IconManager.SharedTagSharesRow` | src/pages/pageMapV2/core/IconManager.ts:57-64 | items with the same tag are drawn from the same sprite row |
| `IconManager.InitIconMap` | src/pages/pageMapV2/core/IconManager.ts:39-80 | no items: the sprite URL becomes empty and the mapping stays. Otherwise the new mapping is installed before drawing, and the sprite URL changes only when drawing succeeds |
| `Overlays.IsOverlayVisible` | src/pages/pageMapV2/utils/getOverlaysFrom.ts:15-23 | an overlay is hidden when overlays are off, when its group is hidden, or when it is not the top item of a single-choice group; it is visible when it passes all three tests |
| `Overlays.TintColor` | src/pages/pageMapV2/utils/getOverlaysFrom.ts:25-31 | the colour is conspicuous iff the overlay is its group's top item. Otherwise it is inconspicuous iff the mask is on, and the no-mask colour when the mask is off |
| `Overlays.OverlaysOffHidesAll` | src/pages/pageMapV2/utils/getOverlaysFrom.ts:16-17 | with overlays switched off, no overlay is visible |
| `Overlays.HiddenGroupHidesOverlay` | src/pages/pageMapV2/utils/getOverlaysFrom.ts:18-19 | an overlay of a hidden group is invisible |
| `Overlays.VisibilityCharacterised` | src/pages/pageMapV2/utils/getOverlaysFrom.ts:15-23 | visible iff overlays are on, the group is not hidden, and (for a single-choice group) the overlay is the top item |
| `Overlays.SingleGroupShowsOneItem` | src/pages/pageMapV2/utils/getOverlaysFrom.ts:20-21 | two visible overlays of one single-choice group belong to the same item |
| `Overlays.LayerFor` | src/pages/pageMapV2/utils/getOverlaysFrom.ts:34-54 | the layer id is `target-overlay-id`. The opacity is 1 iff visible and 0 otherwise. The bounds are the projected `[xmin, ymax, xmax, ymin]`, and the tint and image come from the overlay |
| `Overlays.GetOverlaysFrom` | src/pages/pageMapV2/utils/getOverlaysFrom.ts:11-57 | one layer per overlay, in order |
| `Overlays.LayerIdsDistinct` | src/pages/pageMapV2/utils/getOverlaysFrom.ts:38 | distinct overlay ids give distinct layer ids |
| `NavigationGuard.BeforeEach` | src/router/guards/beforeEach.ts:13-56 | the full decision table: white list, then token, then route existence, then permission. On the allow path the user record is refreshed iff the stored id is falsy or differs from the auth id, and preloading runs iff either end is a map page |
| `NavigationGuard.ProceedsIff` | src/router/guards/beforeEach.ts:24-55 | navigation proceeds unchanged iff the page is white-listed without a valid token, or the token is valid and the route exists and is permitted |
| `NavigationGuard.RedirectsOnlyToMap` | src/router/guards/beforeEach.ts:24-27 | a redirect happens iff a signed-in user opens a white-listed page, and it always goes to `/map` |
| `NavigationGuard.PermissionAfterExistence` | src/router/guards/beforeEach.ts:37-46 | for a missing route the permission list is never consulted |
| `NavigationGuard.CancelCarriesError` | src/router/guards/beforeEach.ts:31-46 | navigation is cancelled iff an error message is shown |
| `Request.ValidateStatus` | src/utils/request.ts:11-13 | a status is accepted iff it is 2xx or exactly 400 |
| `Request.StatusExamples` | src/utils/request.ts:11-13 | 200, 204, 299 and 400 are accepted; 199, 300, 304, 401, 404 and 500 are not |
| `Request.SendSettlesByStatus` | src/utils/request.ts:11-36 | every 2xx reply and Bad Request resolve with the body; every other status rejects with that status |
| `Request.InterceptIdempotent` | src/utils/request.ts:15-24 | running a config through the interceptor twice gives the same config, so a retried config settles as the original |
| `Request.Intercept` | src/utils/request.ts:10-24 | a headers object always exists. Content-Type is `application/json`. Authorization is `Bearer <token>` exactly when the token is truthy. Every other header is kept |
| `Request.Send` | src/utils/request.ts:32-36 | a response resolves iff its status is accepted, and then to its body; otherwise it rejects with that status |
| `ItemList.ItemMap` | src/hooks/useItemList.ts:23-26 | the keys are exactly the defined item ids, and each maps to the last item with that id |
| `ItemList.ItemMapKeysMatch` | src/hooks/useItemList.ts:23-26 | every defined id is indexed, by a listed item carrying that id |
| `ItemList.Resolve` | src/hooks/useItemList.ts:51-53 | absent parameters default to no areas, no type id, page 1 and size 10; only the first type id is kept, and none from an absent or empty list; the name filters iff it is present and non-empty |
| `ItemList.Matches` | src/hooks/useItemList.ts:56-70 | every match is a table row that passes the area, first-type-id and name filters, and every row that passes is a match |
| `ItemList.MatchesCount` | src/hooks/useItemList.ts:56-70 | every passing row is kept as often as it occurs in the table, and every other row is dropped |
| `ItemList.MatchesAppend` | src/hooks/useItemList.ts:56-70 | the filter keeps table order: the matches of a concatenation are the matches of each part, in turn |
| `ItemList.Window` | src/hooks/useItemList.ts:73-76 | offset/limit returns the slice `[offset, offset+limit)` when it fits and the rest of the list from `offset` on the last partial page; a page at or past the end, or a non-positive limit, is empty; a non-positive offset with a non-negative limit gives the first `limit` items, or all of them when fewer |
| `ItemList.OnRequest` | src/hooks/useItemList.ts:50-78 | it rejects iff the name is a non-empty invalid pattern. Otherwise, with no areas and no name filter it returns `{}`; else `total` counts all matches, `record` is the requested page of them, and each record item passes the filters |
| `ItemList.DefaultPaging` | src/hooks/useItemList.ts:51-53 | with no parameters, a name search returns the first ten matches, or rejects when the name is not a valid pattern |
| `ItemList.OnlyFirstTypeIdUsed` | src/hooks/useItemList.ts:52 | searches that agree on the first type id return the same page |
| `ItemList.Insert` | src/hooks/useItemList.ts:82-86 | inserting keeps every element and adds exactly one |
| `ItemList.SortBySortIndex` | src/hooks/useItemList.ts:82-86 | the sorted list is a permutation of the page |
| `ItemList.SortedWhenAllIndexed` | src/hooks/useItemList.ts:82-86 | when every item has a sort index, the list is in descending sort-index order |
| `ItemList.OnSuccess` | src/hooks/useItemList.ts:81-87 | the shared list becomes a permutation of the record, or empty for `{}`; a fully indexed record is stored in descending `sortIndex` order |
| `ItemList.GetItem` | src/hooks/useItemList.ts:36-45 | no id gives nothing and no lookup. Otherwise a cached item is returned as it is and starts no lookup; with nothing cached the result is empty and a database lookup starts |
| `ItemList.FillCache` | src/hooks/useItemList.ts:40-42 | a finished lookup stores its result under the id it looked up and leaves every other cache entry as it was |
| `ItemList.CacheServesAfterFill` | src/hooks/useItemList.ts:39-44 | once a lookup found the item, later calls answer from the cache without a lookup; a miss keeps looking up |
| `ItemList.DeleteItem` | src/hooks/useItemList.ts:123-131 | the ids are sent for deletion iff the confirmation resolves true, and the request then always reports no error |
| `ItemList.EditSameFlag` | src/hooks/useItemList.ts:103 | the flag is 0 or 1, and it is 1 iff `editSame` is set |
| `MarkerRender.Hull` | src/pages/pageMap/hooks/useMarkerRender.ts:32-46 | the reference box encloses every marker and each side touches one |
| `MarkerRender.BoundingBox` | src/pages/pageMap/hooks/useMarkerRender.ts:32-46 | the fold with its `else if` tests computes exactly the smallest enclosing box |
| `MarkerRender.MoveToCenter` | src/pages/pageMap/hooks/useMarkerRender.ts:29-51 | it flies iff the setting is on, there are markers and a map exists. The target is the box centre at the current zoom |
| `MarkerRender.CenterInsideHull` | src/pages/pageMap/hooks/useMarkerRender.ts:47 | the centre lies inside the box; a single marker is its own centre |
| `MarkerRender.RenderMarkers` | src/pages/pageMap/hooks/useMarkerRender.ts:109-117 | one canvas marker (radius 15, marker pane) per input, in order. The old group is removed and the new one added, the popup is closed, and the map then shows only the new group. It flies to the centre as above |

## Left out

- IndexedDB, Dexie `liveQuery` counters and the `total` getters: the tables are plain maps, and the counters only mirror their sizes.
- Network, bz2/7z decompression, UTF-8 decoding and JSON parsing: each remote answer is one input that either failed to download, failed to decode, or decoded to rows.
- `Promise.all` concurrency in the marker refresh: the order in which the shard tasks finish is an input, and the mission list is built in that order (src/stores/marker.ts:62). When two shards carry the same marker id, the last shard to finish wins. The checksum table does not depend on that order, because each task reads and writes only its own checksum row, so the model computes it shard by shard. After the first rejection the real `Promise.all` stops waiting, but the other tasks still run; the model lets every task finish before the outcome is decided.
- `IconTagStore.UpdateIconTag`: Dexie runs a `bulkPut` outside a transaction, so a rejected `bulkPut` may leave some of its rows written. The model treats a rejected `bulkPut` as writing nothing.
- `MarkerStore.UpdateMarkerInfo`: a rejected write of a shard's checksum row is not modelled; the write always succeeds.
- Interleaving of overlapping `backgroundUpdate` calls, which are `async`: each store call is one step, and the interleavings are modelled only as far as the two leak lemmas show.
- `IconTagStore.BackgroundUpdate`: "exactly one timer armed" is promised only for a call that runs alone. Two calls in flight at once leave two timers armed, as `IconTagStore.OverlappingBackgroundUpdatesLeak` shows.
- `IconTagStore.OnTimer`: the single-timer guarantee holds only when no other `backgroundUpdate` is in flight while the fired timer's refresh runs.
- `MarkerStore.BackgroundUpdate`: "exactly one timer armed" is promised only for a call that runs alone. An overlapping call leaks a timer, as `MarkerStore.ReCreateDuringTimerRefreshLeaks` shows.
- `MarkerStore.ReCreateBackgroundUpdate`: when it runs while a fired timer's refresh is still in flight, its own single timer is joined by the one that refresh arms when it finishes. The contract describes the call on its own.
- `MarkerStore.OnTimer`: the single-timer guarantee holds only when no other `backgroundUpdate` or `reCreateBackgroundUpdate` runs while the fired timer's refresh is in flight.
- Wall-clock time, `dayjs` durations and notification texts: the clock is a parameter; notices carry only their kind and count.
- `MarkerStore.UpdateAll`: a missing `data` field in the checksum-list response is the empty list; the model treats a failed checksum request as `None`.
- The markerIcon config (`ICON_RECT`, `BORDER_WIDTH`) is not part of this model; its values are the `Geometry` parameter.
- `IconManager.InitIconMap`: the worker, canvas and object URLs are left out (`revokeObjectURL` included); the drawn sprite is an optional input. The Dexie `anyOf` enumeration order is the order of `rows`.
- `IconManager.IconMapping`: keys are structured `(itemId, state)` pairs instead of the strings `${itemId}_${state}`.
- Overlays: deck.gl layer objects, the coordinate system fields, transitions, update triggers and `pickable` are left out. The projection is a parameter, and coordinates are reals, not floats.
- `NavigationGuard.BeforeEach`: `isInWhiteList`, `isInPermissionList` and `validateUserToken` are boolean inputs; logging is left out.
- `Request.Send`: the base URL and the 2-second timeout are left out; a timeout is a rejected response like any other. The response interceptor is folded into `Send`.
- The request-error handler of the request interceptor (src/utils/request.ts:25-29) calls `Promise.reject` without returning it. It is not modelled.
- `ItemList.OnRequest`: the `RegExp` name test is an abstract predicate, and so is which non-empty names are valid patterns (`compiles`); an invalid one makes the request reject, and `table` is the order in which Dexie enumerates the collection. Dexie's treatment of a negative offset or limit is taken as "skip nothing" and "return nothing".
- `ItemList.SortBySortIndex`: the JavaScript comparator is not a consistent order when some `sortIndex` is undefined, so engines may order such lists differently. The model is a stable insertion sort, and the only order proved is the one for fully indexed lists.
- `ItemList.GetItem`: the asynchronous `db.item.get` is split into the call (which reports whether a lookup starts) and `FillCache` for its completion.
- `ItemList.DeleteItem`: the results of the individual delete requests are ignored by the code, and so are they here.
- `useItemCreate` and the fetch hook's loading flags: plain request wrappers with no logic of their own.
- `useMarkerRender`: the popup content, the edit dialog and the mouse handlers on each marker are Vue/Leaflet UI; `sleep(100)` before the flight is left out. Latitudes and longitudes are reals.
- `useTypeList` and `components/index.ts`: context only.

=== FILE: common.dfy ===
/** Small shared vocabulary: optional values, decimal rendering of natural
    numbers (as a JavaScript template literal renders them) and string prefixes. */
module Common {

  /** A value that may be absent (`undefined` in the front end). */
  datatype Option<+T> = None | Some(value: T) {
    function GetOr(default: T): T {
      match this
      case Some(v) => v
      case None => default
    }
  }

  /** The character of one decimal digit. */
  function Digit(d: nat): (c: char)
    requires d < 10
    ensures '0' <= c <= '9'
  {
    (('0' as int) + d) as char
  }

  /** Decimal rendering of a natural number, most significant digit first. */
  function NatToString(n: nat): (s: string)
    ensures 1 <= |s|
    ensures 10 <= n ==> 2 <= |s|
    ensures forall i :: 0 <= i < |s| ==> '0' <= s[i] <= '9'
  {
    if n < 10 then [Digit(n)] else NatToString(n / 10) + [Digit(n % 10)]
  }

  /** Distinct numbers render to distinct strings, so keys built from them
      never collide. */
  lemma {:induction false} NatToStringInjective(a: nat, b: nat)
    requires NatToString(a) == NatToString(b)
    ensures a == b
  {
    var sa, sb := NatToString(a), NatToString(b);
    if a < 10 && b < 10 {
      assert sa[0] == Digit(a) && sb[0] == Digit(b);
    } else if 10 <= a && 10 <= b {
      var pa, pb := NatToString(a / 10), NatToString(b / 10);
      assert sa == pa + [Digit(a % 10)];
      assert sb == pb + [Digit(b % 10)];
      assert sa[|sa| - 1] == Digit(a % 10) && sb[|sb| - 1] == Digit(b % 10);
      assert pa == sa[..|sa| - 1] && pb == sb[..|sb| - 1];
      NatToStringInjective(a / 10, b / 10);
    }
  }

  /** `s.startsWith(prefix)`. */
  predicate StartsWith(s: string, prefix: string) {
    |prefix| <= |s| && s[..|prefix|] == prefix
  }

  /** Two strings whose first characters differ cannot both start with the
      same non-empty prefix. */
  lemma FirstCharExcludesPrefix(s: string, prefix: string)
    requires |s| > 0 && |prefix| > 0 && s[0] != prefix[0]
    ensures !StartsWith(s, prefix)
  {
  }

  /** The notification a store's refresh ends with: a success notice carrying
      the count, shown only when the user asked for update notices, or a
      failure notice, always shown. */
  datatype Notice = NoNotice | SuccessNotice(count: nat) | ErrorNotice
}

=== FILE: database.dfy ===
/** The local cache the two sync stores share: a checksum table keyed by
    `"<kind>-<index>"`, the icon-tag table and the marker table, plus the
    shape of what the remote side returns for one payload. */
module Database {
  import opened Common

  /** One icon-tag row (`API.TagVo`), stored under its tag name. */
  datatype IconTag = IconTag(tag: string, url: string)

  /** One marker row (`API.MarkerVo`), stored under its id; `body` stands for
      the fields the sync code never looks at. */
  datatype MarkerVo = MarkerVo(id: int, body: string)

  datatype Db = Db(md5: map<string, string>, iconTag: map<string, IconTag>, marker: map<int, MarkerVo>)

  /** What fetching one compressed payload and decoding it yields: the request
      failed, the decompression or JSON parse failed, or the decoded rows. */
  datatype Fetch<T> = FetchFailed | DecodeFailed | Decoded(rows: seq<T>)

  /** Which step of a store's `clearAll` rejects, if any: the table clear or
      the deletion of the store's checksum rows that follows it.  The
      rejection is caught and ignored, so the steps before it stay done. */
  datatype ClearFault = ClearSucceeds | TableClearFails | ChecksumDeleteFails

  function TagOf(t: IconTag): string { t.tag }

  function MarkerId(m: MarkerVo): int { m.id }

  /** `(await db.md5.get(key))?.value`. */
  function Lookup(md5: map<string, string>, key: string): Option<string> {
    if key in md5 then Some(md5[key]) else None
  }

  /** The checksum row id of shard `index` of a kind of data. */
  function ShardKey(kind: string, index: nat): (k: string)
    ensures StartsWith(k, kind + "-")
  {
    kind + "-" + NatToString(index)
  }

  /** Two shards of one kind never share a checksum row. */
  lemma ShardKeyInjective(kind: string, a: nat, b: nat)
    requires ShardKey(kind, a) == ShardKey(kind, b)
    ensures a == b
  {
    var p := kind + "-";
    assert NatToString(a) == ShardKey(kind, a)[|p|..];
    assert NatToString(b) == ShardKey(kind, b)[|p|..];
    NatToStringInjective(a, b);
  }
}

=== FILE: icon_manager.dfy ===
/** `IconManager.initIconMap`: number the icon-tag rows in the order the
    cache enumerates them and lay every item's four icon states out on one
    row of the sprite sheet.  The sprite image itself is drawn by a worker;
    here it is an input that may be missing (the drawing failed). */
module IconManager {
  import opened Common
  import opened Database

  /** The four display states of an item icon, one sprite column each. */
  datatype IconState = Default | Hover | Active | Focus

  /** The column of a state: default, hover, active, focus from left to right. */
  function Column(s: IconState): nat {
    match s
    case Default => 0
    case Hover => 1
    case Active => 2
    case Focus => 3
  }

  /** The mapping key `${itemId}_${state}`, kept structured. */
  datatype IconKey = IconKey(itemId: int, state: IconState)

  /** One entry of the deck.gl icon mapping. */
  datatype Rect = Rect(x: int, y: int, width: int, height: int, anchorY: int)

  /** `ICON_RECT` (`iconWidth`, `iconHeight`) and `BORDER_WIDTH`. */
  datatype Geometry = Geometry(iconWidth: int, iconHeight: int, border: int)

  /** The fields of `API.ItemVo` the mapping reads. */
  datatype Item = Item(itemId: int, iconTag: Option<string>)

  /** The enumeration of the icon-tag rows: each tag is numbered with the
      position of its row (`index++` starting at 0); when a tag occurs twice
      the later row wins. */
  function TagIndex(rows: seq<IconTag>): (m: map<string, nat>)
    ensures NumbersRows(rows, m)
  {
    if rows == [] then map[]
    else
      var prev := TagIndex(rows[..|rows| - 1]);
      TagIndexStep(rows, prev);
      prev[rows[|rows| - 1].tag := |rows| - 1]
  }

  /** `m` numbers exactly the tags of `rows`, each with the position of the
      last row carrying it. */
  ghost predicate NumbersRows(rows: seq<IconTag>, m: map<string, nat>) {
    NumbersTags(rows, m) && NumbersByLastRow(rows, m)
  }

  /** The numbered tags are exactly the tags of `rows`. */
  ghost predicate NumbersTags(rows: seq<IconTag>, m: map<string, nat>) {
    && (forall t :: t in m ==> exists i :: 0 <= i < |rows| && rows[i].tag == t)
    && (forall i :: 0 <= i < |rows| ==> rows[i].tag in m)
  }

  /** Each tag's number is the position of the last row carrying it. */
  ghost predicate NumbersByLastRow(rows: seq<IconTag>, m: map<string, nat>) {
    LastRowsNumbered(rows, m) && NumbersPointBack(rows, m)
  }

  /** The last row carrying a tag is numbered with its own position. */
  ghost predicate LastRowsNumbered(rows: seq<IconTag>, m: map<string, nat>) {
    forall i :: 0 <= i < |rows| && (forall j :: i < j < |rows| ==> rows[j].tag != rows[i].tag) ==>
      rows[i].tag in m && m[rows[i].tag] == i
  }

  /** Each number is the position of a row carrying the tag. */
  ghost predicate NumbersPointBack(rows: seq<IconTag>, m: map<string, nat>) {
    forall t :: t in m ==> m[t] < |rows| && rows[m[t]].tag == t
  }

  lemma TagIndexStep(rows: seq<IconTag>, prev: map<string, nat>)
    requires |rows| > 0 && NumbersRows(rows[..|rows| - 1], prev)
    ensures NumbersRows(rows, prev[rows[|rows| - 1].tag := |rows| - 1])
  {
    TagIndexStepTags(rows, prev);
    TagIndexStepNumbers(rows, prev);
  }

  lemma TagIndexStepTags(rows: seq<IconTag>, prev: map<string, nat>)
    requires |rows| > 0 && NumbersTags(rows[..|rows| - 1], prev)
    ensures NumbersTags(rows, prev[rows[|rows| - 1].tag := |rows| - 1])
  {
    var n := |rows| - 1;
    var init := rows[..n];
    var m := prev[rows[n].tag := n];
    forall t | t in m ensures exists i :: 0 <= i < |rows| && rows[i].tag == t {
      if t != rows[n].tag {
        var i :| 0 <= i < n && init[i].tag == t;
        assert rows[i] == init[i];
      }
    }
    forall i | 0 <= i < |rows| ensures rows[i].tag in m {
      if i < n { assert init[i] == rows[i]; }
    }
  }

  lemma TagIndexStepNumbers(rows: seq<IconTag>, prev: map<string, nat>)
    requires |rows| > 0 && NumbersByLastRow(rows[..|rows| - 1], prev)
    ensures NumbersByLastRow(rows, prev[rows[|rows| - 1].tag := |rows| - 1])
  {
    TagIndexStepLast(rows, prev);
    TagIndexStepBack(rows, prev);
  }

  lemma TagIndexStepLast(rows: seq<IconTag>, prev: map<string, nat>)
    requires |rows| > 0 && LastRowsNumbered(rows[..|rows| - 1], prev)
    ensures LastRowsNumbered(rows, prev[rows[|rows| - 1].tag := |rows| - 1])
  {
    var n := |rows| - 1;
    var init := rows[..n];
    var m := prev[rows[n].tag := n];
    forall i | 0 <= i < |rows| && (forall j :: i < j < |rows| ==> rows[j].tag != rows[i].tag)
      ensures rows[i].tag in m && m[rows[i].tag] == i
    {
      if i < n {
        assert rows[n].tag != rows[i].tag;
        assert init[i] == rows[i];
        forall j | i < j < n ensures init[j].tag != init[i].tag {
          assert init[j] == rows[j];
        }
      }
    }
  }

  lemma TagIndexStepBack(rows: seq<IconTag>, prev: map<string, nat>)
    requires |rows| > 0 && NumbersPointBack(rows[..|rows| - 1], prev)
    ensures NumbersPointBack(rows, prev[rows[|rows| - 1].tag := |rows| - 1])
  {
    var n := |rows| - 1;
    var init := rows[..n];
    var m := prev[rows[n].tag := n];
    forall t | t in m ensures m[t] < |rows| && rows[m[t]].tag == t {
      if t != rows[n].tag {
        assert init[prev[t]] == rows[prev[t]];
      }
    }
  }

  /** Every enumerated tag is numbered, and distinct tags get distinct row
      numbers. */
  lemma TagIndexInjective(rows: seq<IconTag>, i: int, j: int)
    requires 0 <= i < |rows| && 0 <= j < |rows| && rows[i].tag != rows[j].tag
    ensures rows[i].tag in TagIndex(rows) && rows[j].tag in TagIndex(rows)
    ensures TagIndex(rows)[rows[i].tag] != TagIndex(rows)[rows[j].tag]
  {
  }

  /** The sprite rectangle of a state on a given tag row. */
  function Cell(g: Geometry, s: IconState, row: nat): Rect {
    Rect(Column(s) * g.iconWidth, row * g.iconHeight, g.iconWidth, g.iconHeight, g.iconHeight - g.border)
  }

  /** The item has an icon tag that the enumeration numbered. */
  predicate Mapped(item: Item, index: map<string, nat>) {
    item.iconTag.Some? && item.iconTag.value in index
  }

  /** Item `i` is the last mapped item with its id: its rectangles are the
      ones that stay in the mapping. */
  predicate LastMapped(items: seq<Item>, index: map<string, nat>, i: int) {
    && 0 <= i < |items| && Mapped(items[i], index)
    && forall j :: i < j < |items| && Mapped(items[j], index) ==> items[j].itemId != items[i].itemId
  }

  /** `m` is what folding `items` yields: a key is present iff some item with
      that id has a numbered tag, and the last such item decides its four
      rectangles. */
  ghost predicate MapsItems(items: seq<Item>, index: map<string, nat>, g: Geometry, m: map<IconKey, Rect>) {
    && (forall k :: k in m ==> exists i :: 0 <= i < |items| && items[i].itemId == k.itemId && Mapped(items[i], index))
    && (forall i, s :: 0 <= i < |items| && Mapped(items[i], index) ==> IconKey(items[i].itemId, s) in m)
    && (forall i, s :: LastMapped(items, index, i) ==>
          IconKey(items[i].itemId, s) in m && m[IconKey(items[i].itemId, s)] == Cell(g, s, index[items[i].iconTag.value]))
  }

  /** The four rectangles of one item, added to (or overwriting) a mapping. */
  function AddItem(m: map<IconKey, Rect>, id: int, g: Geometry, row: nat): map<IconKey, Rect> {
    m[IconKey(id, Default) := Cell(g, Default, row)]
     [IconKey(id, Hover) := Cell(g, Hover, row)]
     [IconKey(id, Active) := Cell(g, Active, row)]
     [IconKey(id, Focus) := Cell(g, Focus, row)]
  }

  /** The `items.reduce` that builds the icon mapping. */
  function IconMapping(items: seq<Item>, index: map<string, nat>, g: Geometry): (m: map<IconKey, Rect>)
    ensures MapsItems(items, index, g, m)
  {
    if items == [] then map[]
    else
      var n := |items| - 1;
      var prev := IconMapping(items[..n], index, g);
      var item := items[n];
      if !Mapped(item, index) then
        IconMappingSkip(items, index, g, prev);
        prev
      else
        IconMappingAdd(items, index, g, prev);
        AddItem(prev, item.itemId, g, index[item.iconTag.value])
  }

  lemma IconMappingSkip(items: seq<Item>, index: map<string, nat>, g: Geometry, prev: map<IconKey, Rect>)
    requires |items| > 0 && !Mapped(items[|items| - 1], index)
    requires MapsItems(items[..|items| - 1], index, g, prev)
    ensures MapsItems(items, index, g, prev)
  {
    var n := |items| - 1;
    var init := items[..n];
    assert forall i :: 0 <= i < n ==> init[i] == items[i];
    forall k | k in prev ensures exists i :: 0 <= i < |items| && items[i].itemId == k.itemId && Mapped(items[i], index) {
      var i :| 0 <= i < n && init[i].itemId == k.itemId && Mapped(init[i], index);
      assert items[i] == init[i];
    }
    forall i | LastMapped(items, index, i) ensures LastMapped(init, index, i) {
      assert forall j :: i < j < n ==> init[j] == items[j];
    }
  }

  lemma IconMappingAdd(items: seq<Item>, index: map<string, nat>, g: Geometry, prev: map<IconKey, Rect>)
    requires |items| > 0 && Mapped(items[|items| - 1], index)
    requires MapsItems(items[..|items| - 1], index, g, prev)
    ensures MapsItems(items, index, g, AddItem(prev, items[|items| - 1].itemId, g, index[items[|items| - 1].iconTag.value]))
  {
    AddedKeys(items, index, g, prev);
    AddedValues(items, index, g, prev);
  }

  lemma AddedKeys(items: seq<Item>, index: map<string, nat>, g: Geometry, prev: map<IconKey, Rect>)
    requires |items| > 0 && Mapped(items[|items| - 1], index)
    requires MapsItems(items[..|items| - 1], index, g, prev)
    ensures var m := AddItem(prev, items[|items| - 1].itemId, g, index[items[|items| - 1].iconTag.value]);
      forall k :: k in m <==> exists i :: 0 <= i < |items| && items[i].itemId == k.itemId && Mapped(items[i], index)
  {
    var n := |items| - 1;
    var init := items[..n];
    var item := items[n];
    var m := AddItem(prev, item.itemId, g, index[item.iconTag.value]);
    assert forall k :: k in m <==> k in prev || k.itemId == item.itemId by {
      forall k: IconKey | k.itemId == item.itemId ensures k in m {
        match k.state
        case Default =>
        case Hover =>
        case Active =>
        case Focus =>
      }
    }
    forall k | k in prev ensures exists i :: 0 <= i < |items| && items[i].itemId == k.itemId && Mapped(items[i], index) {
      var i :| 0 <= i < n && init[i].itemId == k.itemId && Mapped(init[i], index);
      assert items[i] == init[i];
    }
    forall k: IconKey | exists i :: 0 <= i < |items| && items[i].itemId == k.itemId && Mapped(items[i], index)
      ensures k in prev || k.itemId == item.itemId
    {
      var i :| 0 <= i < |items| && items[i].itemId == k.itemId && Mapped(items[i], index);
      if i < n {
        assert init[i] == items[i];
      }
    }
  }

  lemma AddedValues(items: seq<Item>, index: map<string, nat>, g: Geometry, prev: map<IconKey, Rect>)
    requires |items| > 0 && Mapped(items[|items| - 1], index)
    requires MapsItems(items[..|items| - 1], index, g, prev)
    ensures var m := AddItem(prev, items[|items| - 1].itemId, g, index[items[|items| - 1].iconTag.value]);
      forall i, s :: LastMapped(items, index, i) ==>
        IconKey(items[i].itemId, s) in m && m[IconKey(items[i].itemId, s)] == Cell(g, s, index[items[i].iconTag.value])
  {
    var n := |items| - 1;
    var init := items[..n];
    var item := items[n];
    var m := AddItem(prev, item.itemId, g, index[item.iconTag.value]);
    forall i, s | LastMapped(items, index, i)
      ensures IconKey(items[i].itemId, s) in m && m[IconKey(items[i].itemId, s)] == Cell(g, s, index[items[i].iconTag.value])
    {
      if i < n {
        assert LastMapped(init, index, i) by {
          assert forall j :: i < j < n ==> init[j] == items[j];
        }
        assert items[i] == init[i];
      } else {
        match s
        case Default =>
        case Hover =>
        case Active =>
        case Focus =>
      }
    }
  }

  /** Every mapped item id carries exactly the four state keys. */
  lemma FourKeysPerItem(items: seq<Item>, index: map<string, nat>, g: Geometry, id: int)
    requires exists i :: 0 <= i < |items| && items[i].itemId == id && Mapped(items[i], index)
    ensures var m := IconMapping(items, index, g);
      IconKey(id, Default) in m && IconKey(id, Hover) in m && IconKey(id, Active) in m && IconKey(id, Focus) in m
  {
  }

  /** Items without a numbered tag contribute no key. */
  lemma UnmappedItemsHaveNoKeys(items: seq<Item>, index: map<string, nat>, g: Geometry, id: int, s: IconState)
    requires forall i :: 0 <= i < |items| && items[i].itemId == id ==> !Mapped(items[i], index)
    ensures IconKey(id, s) !in IconMapping(items, index, g)
  {
  }

  /** The last mapped item with a given id. */
  function LastMappedIndex(items: seq<Item>, index: map<string, nat>, i: int): (j: int)
    requires 0 <= i < |items| && Mapped(items[i], index)
    ensures i <= j && LastMapped(items, index, j) && items[j].itemId == items[i].itemId
    decreases |items| - i
  {
    if exists j :: i < j < |items| && Mapped(items[j], index) && items[j].itemId == items[i].itemId then
      var j :| i < j < |items| && Mapped(items[j], index) && items[j].itemId == items[i].itemId;
      LastMappedIndex(items, index, j)
    else i
  }

  /** Every state of a mapped item has a rectangle, and it is one icon cell
      of the sheet: x is the state's column times the icon width, y is some
      tag's row number times the icon height, and the anchor sits the border
      width above the bottom edge. */
  lemma MappingGeometry(items: seq<Item>, index: map<string, nat>, g: Geometry, i: int, s: IconState)
    requires 0 <= i < |items| && Mapped(items[i], index)
    ensures IconKey(items[i].itemId, s) in IconMapping(items, index, g)
    ensures var r := IconMapping(items, index, g)[IconKey(items[i].itemId, s)];
      && r.x == Column(s) * g.iconWidth
      && r.width == g.iconWidth && r.height == g.iconHeight
      && r.anchorY == g.iconHeight - g.border
      && exists t :: t in index && r.y == index[t] * g.iconHeight
  {
    var j := LastMappedIndex(items, index, i);
    assert IconKey(items[j].itemId, s) == IconKey(items[i].itemId, s);
  }

  /** Whole cells of a positive size at different positions along one axis
      do not overlap. */
  lemma SlotsDisjoint(a: nat, b: nat, size: int)
    requires size > 0 && a != b
    ensures a * size + size <= b * size || b * size + size <= a * size
  {
    if a < b {
      NextSlotFurther(a, b - a, size);
    } else {
      NextSlotFurther(b, a - b, size);
    }
  }

  lemma NextSlotFurther(a: nat, d: nat, size: int)
    requires d >= 1 && size > 0
    ensures a * size + size <= (a + d) * size
  {
    assert (a + d) * size == a * size + d * size;
    assert d * size == size + (d - 1) * size;
  }

  /** Two rectangles on different tag rows never overlap vertically, and two
      states of one item never overlap horizontally. */
  lemma CellsDoNotOverlap(g: Geometry, s1: IconState, s2: IconState, row1: nat, row2: nat)
    requires g.iconWidth > 0 && g.iconHeight > 0
    ensures row1 != row2 ==>
      Cell(g, s1, row1).y + g.iconHeight <= Cell(g, s2, row2).y || Cell(g, s2, row2).y + g.iconHeight <= Cell(g, s1, row1).y
    ensures s1 != s2 ==>
      Cell(g, s1, row1).x + g.iconWidth <= Cell(g, s2, row2).x || Cell(g, s2, row2).x + g.iconWidth <= Cell(g, s1, row1).x
  {
    if row1 != row2 { SlotsDisjoint(row1, row2, g.iconHeight); }
    if s1 != s2 { SlotsDisjoint(Column(s1), Column(s2), g.iconWidth); }
  }

  /** Items sharing a tag share a sprite row. */
  lemma SharedTagSharesRow(items: seq<Item>, index: map<string, nat>, g: Geometry, i: int, j: int, s: IconState)
    requires LastMapped(items, index, i) && LastMapped(items, index, j)
    requires items[i].iconTag == items[j].iconTag
    ensures IconMapping(items, index, g)[IconKey(items[i].itemId, s)].y == IconMapping(items, index, g)[IconKey(items[j].itemId, s)].y
  {
  }

  /** The manager's two observable fields. */
  datatype Manager = Manager(spriteImage: string, iconMapping: map<IconKey, Rect>)

  /** `initIconMap(items)`: `rows` are the cached icon-tag rows whose tag some
      item uses, in enumeration order; `rendered` is the object URL of the
      drawn sprite sheet, absent when drawing failed. */
  function InitIconMap(st: Manager, items: seq<Item>, rows: seq<IconTag>, g: Geometry, rendered: Option<string>): (r: Manager)
    // no items: the sprite URL is cleared and the old mapping stays
    ensures items == [] ==> r.spriteImage == "" && r.iconMapping == st.iconMapping
    // otherwise the mapping is rebuilt before the sprite is drawn, so a failed
    // drawing keeps the old sprite but the new mapping
    ensures items != [] ==> MapsItems(items, TagIndex(rows), g, r.iconMapping)
    ensures items != [] ==> r.spriteImage == rendered.GetOr(st.spriteImage)
  {
    if items == [] then st.(spriteImage := "")
    else Manager(rendered.GetOr(st.spriteImage), IconMapping(items, TagIndex(rows), g))
  }
}

=== FILE: icon_tag_store.dfy ===
/** The icon-tag store: a checksum-gated refresh of the whole icon-tag table
    from one remote snapshot, the full clear, and the background schedule. */
module IconTagStore {
  import opened Common
  import opened Database
  import KeyedTable
  import Schedule

  /** The icon tags are one shard, whose checksum row is `iconTag-0`. */
  const Kind: string := "iconTag"
  const ChecksumPrefix: string := Kind + "-"

  function ChecksumKey(): string { ShardKey(Kind, 0) }

  /** What the remote side answers during one refresh: the snapshot's MD5
      (`None` when that request fails) and the fetched, decoded payload. */
  datatype Remote = Remote(md5: Option<string>, data: Fetch<IconTag>)

  /** The value `updateIconTag` resolves to, or its rejection. */
  datatype Outcome = Updated(count: nat) | Failed

  /** Was the snapshot already applied under this checksum? */
  predicate Unchanged(db: Db, md5: string) {
    Lookup(db.md5, ChecksumKey()) == Some(md5)
  }

  /** Which of the three local writes of one refresh rejects, if any: the
      clear (issued only when the local table is larger than the snapshot),
      the bulk upsert of the tags, or the final put of the checksum row.  A
      rejected write changes nothing and ends the refresh. */
  datatype WriteFault = NoFault | ClearFails | BulkPutFails | ChecksumPutFails

  /** Does the local table have to be emptied before the upsert? */
  predicate Clears(db: Db, rows: seq<IconTag>) {
    |db.iconTag| > |rows|
  }

  /** Does `fault` stop a refresh that writes `rows`? */
  predicate Rejects(db: Db, rows: seq<IconTag>, fault: WriteFault) {
    fault == BulkPutFails || fault == ChecksumPutFails || (fault == ClearFails && Clears(db, rows))
  }

  /** `updateIconTag`. The checksum row is written last, after the upsert;
      when the local table holds more tags than the snapshot it is emptied
      first so that tags deleted remotely disappear. */
  function UpdateIconTag(db: Db, remote: Remote, fault: WriteFault): (r: (Db, Outcome))
    // the marker table is never touched
    ensures r.0.marker == db.marker
    ensures r.1.Failed? <==>
      || remote.md5.None?
      || (!Unchanged(db, remote.md5.value) && (!remote.data.Decoded? || Rejects(db, remote.data.rows, fault)))
    // the checksum row moves only when the refresh resolves
    ensures r.1.Failed? ==> r.0.md5 == db.md5
    // a failed checksum request, fetch or decode changes nothing
    ensures remote.md5.None? || !remote.data.Decoded? ==> r.1.Failed? ==> r.0 == db
    // an unchanged checksum skips the payload altogether
    ensures remote.md5.Some? && Unchanged(db, remote.md5.value) ==> r == (db, Updated(0))
    ensures remote.md5.Some? && !Unchanged(db, remote.md5.value) && remote.data.Decoded? ==>
      var rows := remote.data.rows;
      var base := if Clears(db, rows) then map[] else db.iconTag;
      // a rejected clear changes nothing
      && (fault == ClearFails && Clears(db, rows) ==> r == (db, Failed))
      // a rejected upsert leaves the table as the clear left it
      && (fault == BulkPutFails ==> r.0.iconTag == base)
      // a rejected checksum put leaves the tags written
      && (fault == ChecksumPutFails ==> KeyedTable.IsUpsert(base, r.0.iconTag, rows, TagOf))
      // otherwise the checksum is committed after the tags, and the count is the number of decoded tags
      && (!Rejects(db, rows, fault) ==>
            && r.1 == Updated(|rows|)
            && r.0.md5 == db.md5[ChecksumKey() := remote.md5.value]
            && KeyedTable.IsUpsert(base, r.0.iconTag, rows, TagOf))
  {
    match remote.md5
    case None => (db, Failed)
    case Some(newMd5) =>
      if Unchanged(db, newMd5) then (db, Updated(0))
      else
        match remote.data
        case Decoded(rows) =>
          if fault == ClearFails && Clears(db, rows) then (db, Failed)
          else
            var base := if Clears(db, rows) then map[] else db.iconTag;
            if fault == BulkPutFails then (db.(iconTag := base), Failed)
            else
              var tags := KeyedTable.BulkPut(base, rows, TagOf);
              if fault == ChecksumPutFails then (db.(iconTag := tags), Failed)
              else (db.(iconTag := tags, md5 := db.md5[ChecksumKey() := newMd5]), Updated(|rows|))
        case _ => (db, Failed)
  }

  /** The checksum row only ever records a snapshot whose tags were written:
      whenever a refresh leaves a new checksum behind, it resolved and the tag
      table holds the snapshot upserted; whenever any write rejects, the old
      checksum stays and the next refresh downloads and applies the snapshot
      again. */
  lemma ChecksumOnlyAfterTags(db: Db, remote: Remote, fault: WriteFault, again: Fetch<IconTag>)
    requires remote.md5.Some? && !Unchanged(db, remote.md5.value) && remote.data.Decoded?
    ensures var (db1, outcome) := UpdateIconTag(db, remote, fault);
      var rows := remote.data.rows;
      && (Unchanged(db1, remote.md5.value) ==>
            && outcome == Updated(|rows|)
            && KeyedTable.IsUpsert(if Clears(db, rows) then map[] else db.iconTag, db1.iconTag, rows, TagOf))
      && (Rejects(db, rows, fault) ==>
            && !Unchanged(db1, remote.md5.value)
            // a retry without a fault applies the payload it downloads and records the checksum
            && (again.Decoded? ==>
                  var (db2, retried) := UpdateIconTag(db1, Remote(remote.md5, again), NoFault);
                  retried == Updated(|again.rows|) && Unchanged(db2, remote.md5.value)))
  {
    var (db1, outcome) := UpdateIconTag(db, remote, fault);
    if Rejects(db, remote.data.rows, fault) {
      assert db1.md5 == db.md5;
    }
  }

  /** After a clear-then-upsert the table holds exactly the snapshot's tags. */
  lemma ClearedTableHoldsExactlySnapshot(db: Db, remote: Remote)
    requires remote.md5.Some? && !Unchanged(db, remote.md5.value) && remote.data.Decoded?
    requires Clears(db, remote.data.rows)
    ensures UpdateIconTag(db, remote, NoFault).0.iconTag.Keys == KeyedTable.KeysOf(remote.data.rows, TagOf)
    ensures forall t :: t in UpdateIconTag(db, remote, NoFault).0.iconTag ==> UpdateIconTag(db, remote, NoFault).0.iconTag[t].tag == t
  {
    var rows := remote.data.rows;
    var tags := UpdateIconTag(db, remote, NoFault).0.iconTag;
    forall t | t in tags ensures tags[t].tag == t {
      var i :| 0 <= i < |rows| && TagOf(rows[i]) == t;
      var j := KeyedTable.LastIndex(rows, TagOf, i);
    }
  }

  /** Without the clear, every local tag survives, whether or not the
      snapshot still has it. */
  lemma UpsertKeepsLocalTags(db: Db, remote: Remote)
    requires remote.md5.Some? && !Unchanged(db, remote.md5.value) && remote.data.Decoded?
    requires !Clears(db, remote.data.rows)
    ensures db.iconTag.Keys <= UpdateIconTag(db, remote, NoFault).0.iconTag.Keys
    ensures forall t :: t in db.iconTag && t !in KeyedTable.KeysOf(remote.data.rows, TagOf) ==>
      UpdateIconTag(db, remote, NoFault).0.iconTag[t] == db.iconTag[t]
  {
  }

  /** Refreshing twice against the same checksum: the second refresh fetches
      nothing, resolves to 0 and changes nothing, whatever its writes would do. */
  lemma SecondRefreshIsNoOp(db: Db, remote: Remote, fault: WriteFault, again: Fetch<IconTag>, fault2: WriteFault)
    requires UpdateIconTag(db, remote, fault).1.Updated?
    ensures var db1 := UpdateIconTag(db, remote, fault).0;
      UpdateIconTag(db1, Remote(remote.md5, again), fault2) == (db1, Updated(0))
  {
  }

  /** The module-level state of the store besides the tables. */
  datatype Flags = Flags(loading: bool, timers: Schedule.Timers)

  /** `updateAll`: the refresh with its error caught. `loading` is raised for
      the duration and always lowered at the end. */
  function UpdateAll(db: Db, flags: Flags, remote: Remote, fault: WriteFault, noticeDataUpdated: bool): (r: (Db, Flags, Notice))
    ensures r.2.ErrorNotice? <==> UpdateIconTag(db, remote, fault).1.Failed?
    ensures r.2.SuccessNotice? <==> noticeDataUpdated && UpdateIconTag(db, remote, fault).1.Updated?
    ensures r.2.SuccessNotice? ==> UpdateIconTag(db, remote, fault).1 == Updated(r.2.count)
    ensures r.0 == UpdateIconTag(db, remote, fault).0
    ensures !r.1.loading && r.1.timers == flags.timers
  {
    var (db1, outcome) := UpdateIconTag(db, remote, fault);
    var notice := match outcome
      case Failed => ErrorNotice
      case Updated(n) => if noticeDataUpdated then SuccessNotice(n) else NoNotice;
    (db1, flags.(loading := false), notice)
  }

  /** `clearAll`: empty the icon-tag table, then drop exactly the checksum
      rows whose id starts with `iconTag-`; the marker checksums survive.  A
      rejected step is swallowed, and `loading` is lowered on every path. */
  function ClearAll(db: Db, flags: Flags, fault: ClearFault): (r: (Db, Flags))
    ensures r.0.marker == db.marker
    ensures !r.1.loading && r.1.timers == flags.timers
    // a rejected table clear changes nothing
    ensures fault == TableClearFails ==> r.0 == db
    // once the table clear succeeded the table is empty
    ensures fault != TableClearFails ==> r.0.iconTag == map[]
    // a rejected checksum deletion keeps every checksum row
    ensures fault == ChecksumDeleteFails ==> r.0.md5 == db.md5
    ensures fault == ClearSucceeds ==>
      && (forall k :: k in r.0.md5 <==> k in db.md5 && !StartsWith(k, ChecksumPrefix))
      && (forall k :: k in r.0.md5 ==> r.0.md5[k] == db.md5[k])
  {
    var cleared := flags.(loading := false);
    match fault
    case TableClearFails => (db, cleared)
    case ChecksumDeleteFails => (db.(iconTag := map[]), cleared)
    case ClearSucceeds => (db.(iconTag := map[], md5 := KeyedTable.DeletePrefixed(db.md5, ChecksumPrefix)), cleared)
  }

  /** After a complete `clearAll` the next refresh always fetches: no
      checksum is left.  When a step rejects, the checksum row stays, so a
      refresh against the same checksum is skipped exactly as before. */
  lemma ClearAllForcesRefetch(db: Db, flags: Flags, fault: ClearFault, md5: string)
    ensures fault == ClearSucceeds ==> !Unchanged(ClearAll(db, flags, fault).0, md5)
    ensures fault != ClearSucceeds ==> (Unchanged(ClearAll(db, flags, fault).0, md5) <==> Unchanged(db, md5))
  {
    assert StartsWith(ChecksumKey(), ChecksumPrefix);
  }

  /** A rejected checksum deletion strands the store: the table is empty but
      the old checksum remains, so every refresh against that checksum
      resolves to 0 and leaves the table empty. */
  lemma FailedChecksumDeleteStrandsTable(db: Db, flags: Flags, md5: string, again: Fetch<IconTag>, fault: WriteFault)
    requires Unchanged(db, md5)
    ensures var db1 := ClearAll(db, flags, ChecksumDeleteFails).0;
      && db1.iconTag == map[]
      && UpdateIconTag(db1, Remote(Some(md5), again), fault) == (db1, Updated(0))
  {
  }

  /** `clearBackgroundUpdate`. */
  function ClearBackgroundUpdate(flags: Flags): (r: Flags)
    ensures r.timers.pending.None? && r.loading == flags.loading
    ensures Schedule.Valid(flags.timers) ==> Schedule.Valid(r.timers) && r.timers.armed == {}
  {
    flags.(timers := Schedule.Cancel(flags.timers))
  }

  /** `backgroundUpdate`: cancel the waiting timer if any, refresh, then arm
      one new timer, due one interval after `now`.  The call is taken as one
      step; `OverlappingBackgroundUpdatesLeak` shows what two calls in flight
      at once do. */
  function BackgroundUpdate(db: Db, flags: Flags, remote: Remote, fault: WriteFault, noticeDataUpdated: bool,
                            now: int, autoUpdateInterval: Option<int>): (r: (Db, Flags, Notice))
    ensures r.0 == UpdateIconTag(db, remote, fault).0
    ensures Schedule.Valid(flags.timers) ==> Schedule.Valid(r.1.timers) && |r.1.timers.armed| == 1
    ensures Schedule.RestTime(r.1.timers, now) == Schedule.Interval(autoUpdateInterval)
    ensures !r.1.loading
  {
    var (db1, flags1, notice) := UpdateAll(db, BeginBackgroundUpdate(flags), remote, fault, noticeDataUpdated);
    (db1, FinishBackgroundUpdate(flags1, now, autoUpdateInterval), notice)
  }

  /** The part of `backgroundUpdate` before it awaits the refresh. */
  function BeginBackgroundUpdate(flags: Flags): Flags {
    flags.(timers := Schedule.Begin(flags.timers))
  }

  /** The part of `backgroundUpdate` after the refresh: arm the next timer. */
  function FinishBackgroundUpdate(flags: Flags, now: int, autoUpdateInterval: Option<int>): Flags {
    flags.(timers := Schedule.Arm(flags.timers, now, autoUpdateInterval))
  }

  /** Two `backgroundUpdate` calls whose refreshes overlap: both begin before
      either finishes, so two timers are left armed, beyond what the slot
      tracks, and from then on every interval starts two refreshes. */
  lemma OverlappingBackgroundUpdatesLeak(db: Db, flags: Flags, remoteA: Remote, faultA: WriteFault,
                                         remoteB: Remote, faultB: WriteFault, notice: bool,
                                         nowA: int, nowB: int, autoUpdateInterval: Option<int>)
    requires Schedule.Valid(flags.timers)
    ensures var begun := BeginBackgroundUpdate(BeginBackgroundUpdate(flags));
      var (dbA, flagsA, _) := UpdateAll(db, begun, remoteA, faultA, notice);
      var (_, flagsB, _) := UpdateAll(dbA, FinishBackgroundUpdate(flagsA, nowA, autoUpdateInterval), remoteB, faultB, notice);
      var after := FinishBackgroundUpdate(flagsB, nowB, autoUpdateInterval).timers;
      |after.armed| == 2 && !Schedule.Valid(after)
  {
    Schedule.OverlappingUpdatesLeak(flags.timers, nowA, nowB, autoUpdateInterval);
  }

  /** After two overlapping refreshes, `clearBackgroundUpdate` cancels only
      the timer in the slot: the other stays armed, and no later call can
      reach it. */
  lemma ClearAfterOverlapLeavesTimer(db: Db, flags: Flags, remoteA: Remote, faultA: WriteFault,
                                     remoteB: Remote, faultB: WriteFault, notice: bool,
                                     nowA: int, nowB: int, autoUpdateInterval: Option<int>)
    requires Schedule.Valid(flags.timers)
    ensures var begun := BeginBackgroundUpdate(BeginBackgroundUpdate(flags));
      var (dbA, flagsA, _) := UpdateAll(db, begun, remoteA, faultA, notice);
      var (_, flagsB, _) := UpdateAll(dbA, FinishBackgroundUpdate(flagsA, nowA, autoUpdateInterval), remoteB, faultB, notice);
      var cleared := ClearBackgroundUpdate(FinishBackgroundUpdate(flagsB, nowB, autoUpdateInterval)).timers;
      cleared.pending.None? && |cleared.armed| == 1 && !Schedule.Valid(cleared)
  {
    Schedule.ClearAfterLeakLeavesTimer(flags.timers, nowA, nowB, autoUpdateInterval);
  }

  /** Timer `id` fires: its callback empties the slot and starts the next
      background update, which leaves exactly one timer waiting again. */
  function OnTimer(db: Db, flags: Flags, id: nat, remote: Remote, fault: WriteFault, noticeDataUpdated: bool,
                   now: int, autoUpdateInterval: Option<int>): (r: (Db, Flags, Notice))
    requires id in flags.timers.armed
    ensures Schedule.Valid(flags.timers) ==> Schedule.Valid(r.1.timers) && |r.1.timers.armed| == 1 && id !in r.1.timers.armed
  {
    BackgroundUpdate(db, flags.(timers := Schedule.Fire(flags.timers, id)), remote, fault, noticeDataUpdated, now, autoUpdateInterval)
  }
}

=== FILE: item_list.dfy ===
/** The item-list hooks: the id index over the shared item list, the cached
    query with its filters and paging, the sort applied on success, the
    cache lookup, the delete gate and the `editSame` encoding. */
module ItemList {
  import opened Common

  /** The fields of `API.ItemVo` the hooks read. */
  datatype Item = Item(itemId: Option<int>, areaId: int, typeIdList: Option<seq<int>>, name: string, sortIndex: Option<int>)

  /** Item `i` is the last item of the list carrying its (defined) id. */
  predicate LastWithId(items: seq<Item>, i: int) {
    0 <= i < |items| && items[i].itemId.Some?
    && forall j :: i < j < |items| ==> items[j].itemId != items[i].itemId
  }

  /** `m` indexes exactly the items with a defined id, each id by the last
      item carrying it. */
  ghost predicate IndexesItems(items: seq<Item>, m: map<int, Item>) {
    && (forall id :: id in m ==> exists i :: 0 <= i < |items| && items[i].itemId == Some(id))
    && (forall i :: 0 <= i < |items| && items[i].itemId.Some? ==> items[i].itemId.value in m)
    && (forall i :: LastWithId(items, i) ==> m[items[i].itemId.value] == items[i])
  }

  /** `itemMap`: the reduce over the shared list. */
  function ItemMap(items: seq<Item>): (m: map<int, Item>)
    ensures IndexesItems(items, m)
  {
    if items == [] then map[]
    else
      var prev := ItemMap(items[..|items| - 1]);
      ItemMapStep(items, prev);
      var last := items[|items| - 1];
      if last.itemId.Some? then prev[last.itemId.value := last] else prev
  }

  lemma ItemMapStep(items: seq<Item>, prev: map<int, Item>)
    requires |items| > 0 && IndexesItems(items[..|items| - 1], prev)
    ensures var last := items[|items| - 1];
      IndexesItems(items, if last.itemId.Some? then prev[last.itemId.value := last] else prev)
  {
    var n := |items| - 1;
    var init := items[..n];
    var last := items[n];
    var m := if last.itemId.Some? then prev[last.itemId.value := last] else prev;
    forall id | id in m ensures exists i :: 0 <= i < |items| && items[i].itemId == Some(id) {
      if last.itemId != Some(id) {
        var i :| 0 <= i < n && init[i].itemId == Some(id);
        assert items[i] == init[i];
      }
    }
    forall i | 0 <= i < |items| && items[i].itemId.Some? ensures items[i].itemId.value in m {
      if i < n { assert init[i] == items[i]; }
    }
    forall i | LastWithId(items, i) ensures m[items[i].itemId.value] == items[i] {
      if i < n {
        assert init[i] == items[i];
        assert items[n].itemId != items[i].itemId;
        forall j | i < j < n ensures init[j].itemId != init[i].itemId {
          assert init[j] == items[j];
        }
      }
    }
  }

  /** Every defined id is indexed, by an item of the list carrying it. */
  lemma {:induction false} ItemMapKeysMatch(items: seq<Item>, i: int)
    requires 0 <= i < |items| && items[i].itemId.Some?
    ensures var id := items[i].itemId.value;
      id in ItemMap(items) && ItemMap(items)[id].itemId == Some(id) && ItemMap(items)[id] in items
  {
    var j := LastIdIndex(items, i);
  }

  /** The last item carrying the id of item `i`. */
  function LastIdIndex(items: seq<Item>, i: int): (j: int)
    requires 0 <= i < |items| && items[i].itemId.Some?
    ensures i <= j && LastWithId(items, j) && items[j].itemId == items[i].itemId
    decreases |items| - i
  {
    if exists j :: i < j < |items| && items[j].itemId == items[i].itemId then
      var j :| i < j < |items| && items[j].itemId == items[i].itemId;
      LastIdIndex(items, j)
    else i
  }

  /** `API.ItemSearchVo`; absent fields take the destructuring defaults. */
  datatype Search = Search(areaIdList: Option<seq<int>>, typeIdList: Option<seq<int>>, current: Option<int>, size: Option<int>)

  const DefaultCurrent: int := 1
  const DefaultSize: int := 10

  /** The resolved query: the `{}` of the early return, or a page with the
      count of all matches. */
  datatype Page = NoQuery | Page(record: seq<Item>, total: nat)

  /** How `onRequest` settles: it rejects when the name is not a valid
      regular expression, and otherwise resolves to a page. */
  datatype Answer = PatternRejected | Answered(page: Page)

  /** The query as the hook resolves it from its parameters. */
  datatype Query = Query(areas: seq<int>, typeId: Option<int>, current: int, size: int, byName: bool)

  /** `fetchParams.value ?? {}` with its defaults; `typeIdList[0]` is the only
      type id used; a name filter is applied only when it is truthy. */
  function Resolve(params: Option<Search>, nameFilter: Option<string>): (q: Query)
    // absent parameters select nothing and ask for the first page of ten
    ensures params.None? ==> q.areas == [] && q.typeId.None? && q.current == DefaultCurrent && q.size == DefaultSize
    ensures params.Some? ==>
      && q.areas == params.value.areaIdList.GetOr([])
      && q.current == params.value.current.GetOr(DefaultCurrent)
      && q.size == params.value.size.GetOr(DefaultSize)
      // only the first type id is kept, and none from an absent or empty list
      && (q.typeId.Some? <==> params.value.typeIdList.Some? && |params.value.typeIdList.value| > 0)
      && (q.typeId.Some? ==> q.typeId.value == params.value.typeIdList.value[0])
    // an absent or empty name does not filter
    ensures q.byName <==> nameFilter.Some? && nameFilter.value != ""
  {
    var p := params.GetOr(Search(None, None, None, None));
    var types := p.typeIdList.GetOr([]);
    Query(p.areaIdList.GetOr([]), if |types| > 0 then Some(types[0]) else None,
          p.current.GetOr(DefaultCurrent), p.size.GetOr(DefaultSize),
          nameFilter.Some? && nameFilter.value != "")
  }

  /** `itemVO.typeIdList?.includes(typeId)`, vacuous without a type id. */
  predicate HasType(item: Item, typeId: Option<int>) {
    typeId.None? || (item.typeIdList.Some? && typeId.value in item.typeIdList.value)
  }

  /** The collection filter. Without areas only the name test applies;
      `matchesName` stands for the regular-expression test on `item.name`. */
  predicate Selected(q: Query, matchesName: Item -> bool, item: Item) {
    if q.areas == [] then matchesName(item)
    else item.areaId in q.areas && HasType(item, q.typeId) && (q.byName ==> matchesName(item))
  }

  /** The matching rows in table order. */
  function Matches(q: Query, matchesName: Item -> bool, table: seq<Item>): (r: seq<Item>)
    ensures |r| <= |table|
    ensures forall x :: x in r ==> x in table && Selected(q, matchesName, x)
    ensures forall i :: 0 <= i < |table| && Selected(q, matchesName, table[i]) ==> table[i] in r
  {
    if table == [] then []
    else
      var rest := Matches(q, matchesName, table[1..]);
      assert forall i :: 1 <= i < |table| ==> table[i] == table[1..][i - 1];
      if Selected(q, matchesName, table[0]) then [table[0]] + rest else rest
  }

  /** Every selected row is kept as often as it occurs in the table, every
      other row is dropped. */
  lemma {:induction false} MatchesCount(q: Query, matchesName: Item -> bool, table: seq<Item>, x: Item)
    ensures multiset(Matches(q, matchesName, table))[x] == if Selected(q, matchesName, x) then multiset(table)[x] else 0
  {
    if table != [] {
      MatchesCount(q, matchesName, table[1..], x);
      assert table == [table[0]] + table[1..];
    }
  }

  /** The filter keeps table order: matching a concatenation matches each
      part in turn. */
  lemma {:induction false} MatchesAppend(q: Query, matchesName: Item -> bool, a: seq<Item>, b: seq<Item>)
    ensures Matches(q, matchesName, a + b) == Matches(q, matchesName, a) + Matches(q, matchesName, b)
  {
    if a == [] {
      assert a + b == b;
    } else {
      assert (a + b)[0] == a[0];
      assert (a + b)[1..] == a[1..] + b;
      MatchesAppend(q, matchesName, a[1..], b);
    }
  }

  /** `collection.offset(o).limit(n).toArray()`; a non-positive offset skips
      nothing and a non-positive limit yields nothing. */
  function Window(s: seq<Item>, offset: int, limit: int): (r: seq<Item>)
    ensures |r| <= if limit < 0 then 0 else limit
    ensures offset >= 0 && limit >= 0 && offset + limit <= |s| ==> r == s[offset..offset + limit]
    ensures forall x :: x in r ==> x in s
    ensures |r| <= |s|
    ensures offset <= 0 ==> r == s[..|r|]
    // a non-positive offset skips nothing: the first page
    ensures offset <= 0 && 0 <= limit ==> r == s[..if limit <= |s| then limit else |s|]
    // a page inside the list, the last partial page, and a page past the end
    ensures 0 <= offset <= |s| && 0 <= limit ==>
      r == s[offset..offset + (if offset + limit <= |s| then limit else |s| - offset)]
    ensures offset >= |s| ==> r == []
    ensures limit <= 0 ==> r == []
  {
    var from := if offset < 0 then 0 else if offset > |s| then |s| else offset;
    var to := if limit <= 0 then from else if from + limit > |s| then |s| else from + limit;
    s[from..to]
  }

  /** `new RegExp(name ?? '')` succeeds: the empty pattern always compiles,
      and `compiles` says which other patterns are valid regular expressions. */
  predicate PatternCompiles(nameFilter: Option<string>, compiles: string -> bool) {
    nameFilter.GetOr("") == "" || compiles(nameFilter.GetOr(""))
  }

  /** `onRequest`: `table` is the item table in the order the query
      enumerates it.  The regular expression is built first, on every
      request, so an invalid name rejects before anything is read. */
  function OnRequest(params: Option<Search>, nameFilter: Option<string>, compiles: string -> bool,
                     matchesName: Item -> bool, table: seq<Item>): (r: Answer)
    ensures r.PatternRejected? <==> !PatternCompiles(nameFilter, compiles)
    ensures var q := Resolve(params, nameFilter);
      r.Answered? ==>
      && (r.page.NoQuery? <==> q.areas == [] && !q.byName)
      && (r.page.Page? ==> r.page.total == |Matches(q, matchesName, table)|)
      && (r.page.Page? ==> r.page.record == Window(Matches(q, matchesName, table), (q.current - 1) * q.size, q.size))
      // every returned item passes the area, first-type-id and name filters
      && (r.page.Page? ==> forall x :: x in r.page.record ==>
            && x in table
            && (q.areas != [] ==> x.areaId in q.areas && HasType(x, q.typeId))
            && (q.byName ==> matchesName(x)))
  {
    if !PatternCompiles(nameFilter, compiles) then PatternRejected
    else
      var q := Resolve(params, nameFilter);
      if q.areas == [] && !q.byName then Answered(NoQuery)
      else
        var matches := Matches(q, matchesName, table);
        var record := Window(matches, (q.current - 1) * q.size, q.size);
        RecordSelected(q, matchesName, table, matches, record);
        Answered(Page(record, |matches|))
  }

  /** Every item of a window on the matches is a selected table row. */
  lemma RecordSelected(q: Query, matchesName: Item -> bool, table: seq<Item>, matches: seq<Item>, record: seq<Item>)
    requires matches == Matches(q, matchesName, table)
    requires forall x :: x in record ==> x in matches
    ensures forall x :: x in record ==> x in table && Selected(q, matchesName, x)
  {
  }

  /** With no parameters a name search returns the first ten matches, or
      rejects when the name is not a valid pattern. */
  lemma DefaultPaging(nameFilter: string, compiles: string -> bool, matchesName: Item -> bool, table: seq<Item>)
    requires nameFilter != ""
    ensures var r := OnRequest(None, Some(nameFilter), compiles, matchesName, table);
      var m := Matches(Resolve(None, Some(nameFilter)), matchesName, table);
      && (compiles(nameFilter) ==> r.Answered? && r.page.Page? && r.page.record == m[..if |m| < 10 then |m| else 10])
      && (!compiles(nameFilter) ==> r.PatternRejected?)
  {
  }

  /** Only the first type id matters: two searches that agree on it return
      the same page. */
  lemma OnlyFirstTypeIdUsed(s: Search, t: seq<int>, u: seq<int>, nameFilter: Option<string>, compiles: string -> bool,
                            matchesName: Item -> bool, table: seq<Item>)
    requires |t| > 0 && |u| > 0 && t[0] == u[0]
    ensures OnRequest(Some(s.(typeIdList := Some(t))), nameFilter, compiles, matchesName, table)
         == OnRequest(Some(s.(typeIdList := Some(u))), nameFilter, compiles, matchesName, table)
  {
    assert Resolve(Some(s.(typeIdList := Some(t))), nameFilter) == Resolve(Some(s.(typeIdList := Some(u))), nameFilter);
  }

  /** The comparator `ib - ia` says `a` goes strictly before `b`: both indices
      are defined and `a`'s is larger.  It answers "equal" whenever either
      index is undefined. */
  predicate Before(a: Item, b: Item) {
    a.sortIndex.Some? && b.sortIndex.Some? && a.sortIndex.value > b.sortIndex.value
  }

  predicate AllIndexed(s: seq<Item>) {
    forall i :: 0 <= i < |s| ==> s[i].sortIndex.Some?
  }

  /** Non-increasing `sortIndex` from front to back. */
  predicate Descending(s: seq<Item>) {
    forall i, j :: 0 <= i < j < |s| ==> s[i].sortIndex.Some? && s[j].sortIndex.Some? && s[i].sortIndex.value >= s[j].sortIndex.value
  }

  /** Insert `x` in front of the first element that does not go strictly
      before it. */
  function Insert(x: Item, t: seq<Item>): (r: seq<Item>)
    ensures multiset(r) == multiset(t) + multiset{x}
  {
    if t == [] || !Before(t[0], x) then [x] + t
    else
      assert t == [t[0]] + t[1..];
      [t[0]] + Insert(x, t[1..])
  }

  /** `record.sort(...)` as a stable insertion sort. */
  function SortBySortIndex(s: seq<Item>): (r: seq<Item>)
    ensures multiset(r) == multiset(s)
  {
    if s == [] then []
    else
      assert s == [s[0]] + s[1..];
      Insert(s[0], SortBySortIndex(s[1..]))
  }

  lemma {:induction false} InsertDescending(x: Item, t: seq<Item>)
    requires x.sortIndex.Some? && AllIndexed(t) && Descending(t)
    ensures Descending(Insert(x, t))
  {
    if t == [] || !Before(t[0], x) {
    } else {
      var tail := t[1..];
      assert AllIndexed(tail) && Descending(tail) by {
        forall i | 0 <= i < |tail| ensures tail[i] == t[i + 1] { }
      }
      InsertDescending(x, tail);
      var ins := Insert(x, tail);
      assert multiset(ins) == multiset(tail) + multiset{x};
      forall j | 0 <= j < |ins| ensures ins[j].sortIndex.Some? && t[0].sortIndex.value >= ins[j].sortIndex.value {
        assert ins[j] in multiset(ins);
        if ins[j] != x {
          assert ins[j] in multiset(tail);
          var k :| 0 <= k < |tail| && tail[k] == ins[j];
          assert tail[k] == t[k + 1];
        }
      }
    }
  }

  /** When every item has a sort index the stored list runs from the largest
      index to the smallest. */
  lemma {:induction false} SortedWhenAllIndexed(s: seq<Item>)
    requires AllIndexed(s)
    ensures Descending(SortBySortIndex(s))
  {
    if s != [] {
      var tail := s[1..];
      assert AllIndexed(tail) by {
        forall i | 0 <= i < |tail| ensures tail[i] == s[i + 1] { }
      }
      SortedWhenAllIndexed(tail);
      var sorted := SortBySortIndex(tail);
      assert AllIndexed(sorted) by {
        forall i | 0 <= i < |sorted| ensures sorted[i].sortIndex.Some? {
          assert sorted[i] in multiset(tail);
          var k :| 0 <= k < |tail| && tail[k] == sorted[i];
        }
      }
      InsertDescending(s[0], sorted);
    }
  }

  /** `onSuccess`: the shared list becomes the sorted page; a `{}` result
      stores an empty list. */
  function OnSuccess(result: Page): (list: seq<Item>)
    ensures result.NoQuery? ==> list == []
    ensures result.Page? ==> multiset(list) == multiset(result.record)
    // a fully indexed page is stored in descending `sortIndex` order
    ensures result.Page? && AllIndexed(result.record) ==> Descending(list)
  {
    match result
    case NoQuery => []
    case Page(record, _) =>
      if AllIndexed(record) then SortedWhenAllIndexed(record); SortBySortIndex(record)
      else SortBySortIndex(record)
  }

  /** `getItem(itemId)` against the per-hook cache: the cached value, and
      whether a database lookup is started to fill it. */
  function GetItem(cache: map<int, Option<Item>>, itemId: Option<int>): (r: (Option<Item>, bool))
    ensures itemId.None? ==> r == (None, false)
    ensures r.1 <==> itemId.Some? && (itemId.value !in cache || cache[itemId.value].None?)
    ensures r.0.Some? ==> itemId.Some? && itemId.value in cache && r.0 == cache[itemId.value]
    ensures itemId.Some? && itemId.value in cache ==> r.0 == cache[itemId.value]
    ensures itemId.Some? && itemId.value !in cache ==> r.0.None?
  {
    match itemId
    case None => (None, false)
    case Some(id) =>
      var cached := if id in cache then cache[id] else None;
      (cached, cached.None?)
  }

  /** The lookup's answer lands in the cache. */
  function FillCache(cache: map<int, Option<Item>>, id: int, fromDb: Option<Item>): (r: map<int, Option<Item>>)
    ensures r.Keys == cache.Keys + {id} && r[id] == fromDb
    ensures forall k :: k in cache && k != id ==> r[k] == cache[k]
  {
    cache[id := fromDb]
  }

  /** Once the lookup found the item, later calls answer from the cache
      without another lookup; a miss keeps looking it up. */
  lemma CacheServesAfterFill(cache: map<int, Option<Item>>, id: int, fromDb: Option<Item>)
    ensures fromDb.Some? ==> GetItem(FillCache(cache, id, fromDb), Some(id)) == (fromDb, false)
    ensures fromDb.None? ==> GetItem(FillCache(cache, id, fromDb), Some(id)) == (None, true)
  {
  }

  /** What one `deleteItem()` does: the ids sent to the delete API, and what
      the request reports (absent when it never ran). */
  datatype DeleteRun = DeleteRun(deleted: seq<int>, reportedError: Option<bool>)

  /** `deleteItem`: `confirmed` is what `onFetchBefore` resolved to, absent
      when there is no such hook. */
  function DeleteItem(confirmed: Option<bool>, ids: seq<int>): (r: DeleteRun)
    ensures r.reportedError.Some? <==> confirmed == Some(true)
    ensures confirmed == Some(true) ==> r.deleted == ids && r.reportedError == Some(false)
    ensures confirmed != Some(true) ==> r.deleted == []
  {
    if confirmed == Some(true) then DeleteRun(ids, Some(false)) else DeleteRun([], None)
  }

  /** The `editSame` query flag. */
  function EditSameFlag(editSame: bool): (flag: int)
    ensures flag == 0 || flag == 1
    ensures editSame <==> flag != 0
  {
    if editSame then 1 else 0
  }
}

=== FILE: keyed_table.dfy ===
/** The two table operations the local cache offers the sync code: a keyed
    bulk upsert in which the later row wins, and deletion of every row whose
    string key starts with a prefix. */
module KeyedTable {
  import opened Common

  /** The keys a sequence of rows would be stored under. */
  function KeysOf<K, V>(rows: seq<V>, key: V -> K): set<K> {
    set i | 0 <= i < |rows| :: key(rows[i])
  }

  /** Row `i` is the last row carrying its key. */
  predicate LastWith<K(==), V>(rows: seq<V>, key: V -> K, i: int) {
    0 <= i < |rows| && forall j :: i < j < |rows| ==> key(rows[j]) != key(rows[i])
  }

  /** `after` is `before` with `rows` upserted one by one: it holds exactly the
      old keys and the rows' keys, every row key holds the last row carrying
      it, and every other old key keeps its old value. */
  ghost predicate IsUpsert<K, V>(before: map<K, V>, after: map<K, V>, rows: seq<V>, key: V -> K) {
    && after.Keys == before.Keys + KeysOf(rows, key)
    && (forall i :: LastWith(rows, key, i) ==> after[key(rows[i])] == rows[i])
    && (forall k :: k in before && k !in KeysOf(rows, key) ==> after[k] == before[k])
  }

  /** `table.bulkPut(rows)`. */
  function BulkPut<K, V>(t: map<K, V>, rows: seq<V>, key: V -> K): (r: map<K, V>)
    ensures IsUpsert(t, r, rows, key)
    decreases |rows|
  {
    if rows == [] then t
    else
      var n := |rows| - 1;
      var prev := BulkPut(t, rows[..n], key);
      UpsertOneMore(t, prev, rows, key);
      prev[key(rows[n]) := rows[n]]
  }

  /** Putting one more row after an upsert of the rows before it is an upsert
      of all of them. */
  lemma UpsertOneMore<K, V>(t: map<K, V>, prev: map<K, V>, rows: seq<V>, key: V -> K)
    requires |rows| > 0
    requires IsUpsert(t, prev, rows[..|rows| - 1], key)
    ensures IsUpsert(t, prev[key(rows[|rows| - 1]) := rows[|rows| - 1]], rows, key)
  {
    var n := |rows| - 1;
    var init := rows[..n];
    var r := prev[key(rows[n]) := rows[n]];
    assert KeysOf(rows, key) == KeysOf(init, key) + {key(rows[n])} by {
      forall k | k in KeysOf(rows, key) ensures k in KeysOf(init, key) + {key(rows[n])} {
        var i :| 0 <= i < |rows| && key(rows[i]) == k;
        if i < n { assert init[i] == rows[i]; }
      }
      forall k | k in KeysOf(init, key) ensures k in KeysOf(rows, key) {
        var i :| 0 <= i < |init| && key(init[i]) == k;
        assert rows[i] == init[i];
      }
    }
    forall i | LastWith(rows, key, i) ensures r[key(rows[i])] == rows[i] {
      if i < n {
        assert key(rows[n]) != key(rows[i]);
        assert init[i] == rows[i];
        assert LastWith(init, key, i) by {
          forall j | i < j < |init| ensures key(init[j]) != key(init[i]) {
            assert init[j] == rows[j];
          }
        }
      }
    }
  }

  /** An upsert is determined by its inputs: two tables that are both the
      upsert of the same rows into the same table are equal. */
  lemma UpsertUnique<K, V>(before: map<K, V>, a: map<K, V>, b: map<K, V>, rows: seq<V>, key: V -> K)
    requires IsUpsert(before, a, rows, key) && IsUpsert(before, b, rows, key)
    ensures a == b
  {
    forall k | k in a ensures a[k] == b[k] {
      if k in KeysOf(rows, key) {
        var i :| 0 <= i < |rows| && key(rows[i]) == k;
        var last := LastIndex(rows, key, i);
        assert key(rows[last]) == k;
      }
    }
  }

  /** The last row carrying the key of row `i`. */
  function LastIndex<K(==), V>(rows: seq<V>, key: V -> K, i: int): (j: int)
    requires 0 <= i < |rows|
    ensures i <= j && LastWith(rows, key, j) && key(rows[j]) == key(rows[i])
    decreases |rows| - i
  {
    if exists j :: i < j < |rows| && key(rows[j]) == key(rows[i]) then
      var j :| i < j < |rows| && key(rows[j]) == key(rows[i]);
      LastIndex(rows, key, j)
    else i
  }

  /** Upserting nothing leaves the table as it was. */
  lemma BulkPutNothing<K, V>(t: map<K, V>, key: V -> K)
    ensures BulkPut(t, [], key) == t
  {
  }

  /** Upserting the same rows twice is the same as upserting them once. */
  lemma {:induction false} BulkPutIdempotent<K, V>(t: map<K, V>, rows: seq<V>, key: V -> K)
    ensures BulkPut(BulkPut(t, rows, key), rows, key) == BulkPut(t, rows, key)
  {
    var once := BulkPut(t, rows, key);
    var twice := BulkPut(once, rows, key);
    assert IsUpsert(t, twice, rows, key) by {
      forall k | k in t && k !in KeysOf(rows, key) ensures twice[k] == t[k] {
        assert k in once;
      }
    }
    UpsertUnique(t, twice, once, rows, key);
  }

  /** `where('id').startsWith(prefix).delete()`: the rows kept are exactly the
      rows whose key does not start with the prefix, with their values. */
  function DeletePrefixed<V>(t: map<string, V>, prefix: string): (r: map<string, V>)
    ensures forall k :: k in r <==> k in t && !StartsWith(k, prefix)
    ensures forall k :: k in r ==> r[k] == t[k]
  {
    map k | k in t && !StartsWith(k, prefix) :: t[k]
  }
}

=== FILE: marker_render.dfy ===
/** `useMarkerRender`: replacing the rendered marker layer and moving the
    view to the centre of the markers' bounding box. */
module MarkerRender {
  import opened Common

  datatype LatLng = LatLng(lat: real, lng: real)

  /** The bounding box the fold accumulates: `x` runs over latitudes and `y`
      over longitudes. */
  datatype Box = Box(xmin: real, xmax: real, ymin: real, ymax: real)

  function Min(a: real, b: real): real { if a <= b then a else b }
  function Max(a: real, b: real): real { if a >= b then a else b }

  /** Every point lies in the box. */
  predicate Encloses(b: Box, pts: seq<LatLng>) {
    forall i :: 0 <= i < |pts| ==> b.xmin <= pts[i].lat <= b.xmax && b.ymin <= pts[i].lng <= b.ymax
  }

  /** Every side of the box touches some point. */
  predicate Tight(b: Box, pts: seq<LatLng>) {
    && (exists i :: 0 <= i < |pts| && pts[i].lat == b.xmin)
    && (exists i :: 0 <= i < |pts| && pts[i].lat == b.xmax)
    && (exists i :: 0 <= i < |pts| && pts[i].lng == b.ymin)
    && (exists i :: 0 <= i < |pts| && pts[i].lng == b.ymax)
  }

  /** Reference definition: the smallest box around the points, by plain
      minimum and maximum. */
  function Hull(pts: seq<LatLng>): (b: Box)
    requires |pts| > 0
    ensures b.xmin <= b.xmax && b.ymin <= b.ymax
    ensures Encloses(b, pts) && Tight(b, pts)
  {
    if |pts| == 1 then Box(pts[0].lat, pts[0].lat, pts[0].lng, pts[0].lng)
    else
      var n := |pts| - 1;
      var h := Hull(pts[..n]);
      assert forall i :: 0 <= i < n ==> pts[..n][i] == pts[i];
      Box(Min(h.xmin, pts[n].lat), Max(h.xmax, pts[n].lat), Min(h.ymin, pts[n].lng), Max(h.ymax, pts[n].lng))
  }

  /** The `markers.slice(1).reduce` seeded with the first marker, with its
      `else if` tests: a point below the minimum cannot also be above the
      maximum, so the fold computes the hull. */
  method BoundingBox(pts: seq<LatLng>) returns (b: Box)
    requires |pts| > 0
    ensures b == Hull(pts)
    ensures b.xmin <= b.xmax && b.ymin <= b.ymax
    ensures Encloses(b, pts) && Tight(b, pts)
  {
    b := Box(pts[0].lat, pts[0].lat, pts[0].lng, pts[0].lng);
    var i := 1;
    while i < |pts|
      invariant 1 <= i <= |pts|
      invariant b == Hull(pts[..i])
    {
      assert pts[..i + 1][..i] == pts[..i];
      var p := pts[i];
      if p.lat < b.xmin {
        b := b.(xmin := p.lat);
      } else if p.lat > b.xmax {
        b := b.(xmax := p.lat);
      }
      if p.lng < b.ymin {
        b := b.(ymin := p.lng);
      } else if p.lng > b.ymax {
        b := b.(ymax := p.lng);
      }
      i := i + 1;
    }
    assert pts[..i] == pts;
  }

  /** The centre of a box. */
  function Midpoint(b: Box): LatLng {
    LatLng((b.xmin + b.xmax) / 2.0, (b.ymin + b.ymax) / 2.0)
  }

  /** `map.flyTo(center, zoom)`. */
  datatype Flight = Flight(center: LatLng, zoom: int)

  /** `moveToCenter`: nothing when the setting is off, there are no markers or
      there is no map; otherwise fly to the centre of the markers' box at the
      current zoom. */
  method MoveToCenter(enabled: bool, markers: seq<LatLng>, currentZoom: Option<int>) returns (flight: Option<Flight>)
    ensures flight.Some? <==> enabled && |markers| > 0 && currentZoom.Some?
    ensures flight.Some? ==> flight.value.zoom == currentZoom.value
    ensures flight.Some? ==> flight.value.center == Midpoint(Hull(markers))
  {
    if !enabled || |markers| == 0 {
      return None;
    }
    var b := BoundingBox(markers);
    var center := Midpoint(b);
    flight := if currentZoom.Some? then Some(Flight(center, currentZoom.value)) else None;
  }

  /** The centre lies inside the markers' box, and one marker is its own
      centre. */
  lemma CenterInsideHull(markers: seq<LatLng>)
    requires |markers| > 0
    ensures var b := Hull(markers); var c := Midpoint(b);
      b.xmin <= c.lat <= b.xmax && b.ymin <= c.lng <= b.ymax
    ensures |markers| == 1 ==> Midpoint(Hull(markers)) == markers[0]
  {
  }

  /** The source object of one marker: its id and position. */
  datatype MarkerInfo = MarkerInfo(id: int, position: LatLng)

  /** A canvas marker as `createGenshinMarker` builds it. */
  datatype CanvasMarker = CanvasMarker(info: MarkerInfo, radius: int, pane: string)

  const MarkerRadius: int := 15
  const MarkerPane: string := "markerPane"

  /** A `GenshinMarkerGroup`, identified by `id`. */
  datatype Group = Group(id: nat, markers: seq<CanvasMarker>)

  /** The map as the hook sees it: which of the hook's groups it shows, the
      marker popup and the zoom level. */
  datatype MapView = MapView(groups: set<nat>, popupOpen: bool, zoom: int)

  /** The hook's `markerLayer`, and the id the next group will get. */
  datatype Hook = Hook(markerLayer: Option<Group>, nextGroup: nat)

  /** The map shows at most the hook's current group, and no group id is
      reused. */
  predicate Owned(view: MapView, hook: Hook) {
    && (forall id :: id in view.groups ==> hook.markerLayer.Some? && hook.markerLayer.value.id == id)
    && (hook.markerLayer.Some? ==> hook.markerLayer.value.id < hook.nextGroup)
  }

  function Positions(markers: seq<MarkerInfo>): (ps: seq<LatLng>)
    ensures |ps| == |markers| && forall i :: 0 <= i < |markers| ==> ps[i] == markers[i].position
  {
    if markers == [] then [] else [markers[0].position] + Positions(markers[1..])
  }

  /** `renderMarkers`: close the popup, take the previous group off the map,
      build one canvas marker per input, show the new group, make it the
      current one and move to the markers' centre. */
  method RenderMarkers(view: Option<MapView>, hook: Hook, markers: seq<MarkerInfo>, moveToCenter: bool)
    returns (view': Option<MapView>, hook': Hook, flight: Option<Flight>)
    ensures view'.Some? == view.Some?
    ensures hook'.markerLayer.Some? && hook'.nextGroup > hook.nextGroup
    ensures var g := hook'.markerLayer.value;
      && |g.markers| == |markers|
      && (forall i :: 0 <= i < |markers| ==> g.markers[i] == CanvasMarker(markers[i], MarkerRadius, MarkerPane))
    ensures view.Some? ==>
      && view'.value.groups == view.value.groups - (if hook.markerLayer.Some? then {hook.markerLayer.value.id} else {}) + {hook'.markerLayer.value.id}
      && !view'.value.popupOpen && view'.value.zoom == view.value.zoom
    ensures view.Some? && Owned(view.value, hook) ==> Owned(view'.value, hook') && view'.value.groups == {hook'.markerLayer.value.id}
    ensures flight.Some? <==> moveToCenter && |markers| > 0 && view.Some?
    ensures flight.Some? ==> flight.value.zoom == view.value.zoom && flight.value.center == Midpoint(Hull(Positions(markers)))
  {
    var canvas: seq<CanvasMarker> := [];
    var i := 0;
    while i < |markers|
      invariant i <= |markers| && |canvas| == i
      invariant forall j :: 0 <= j < i ==> canvas[j] == CanvasMarker(markers[j], MarkerRadius, MarkerPane)
    {
      canvas := canvas + [CanvasMarker(markers[i], MarkerRadius, MarkerPane)];
      i := i + 1;
    }
    var group := Group(hook.nextGroup, canvas);
    match view {
      case None =>
        view' := None;
      case Some(v) =>
        var remaining := if hook.markerLayer.Some? then v.groups - {hook.markerLayer.value.id} else v.groups;
        view' := Some(MapView(remaining + {group.id}, false, v.zoom));
    }
    hook' := Hook(Some(group), hook.nextGroup + 1);
    flight := MoveToCenter(moveToCenter, Positions(markers), if view.Some? then Some(view.value.zoom) else None);
  }
}

=== FILE: marker_store.dfy ===
/** The marker store: a checksum-gated refresh of the marker table from a
    remote snapshot split into numbered shards, the full clear, and the
    background schedule.

    Shard `i` of the remote MD5 list (counting from 0) is stored under the
    checksum row `marker-<i+1>`.  The shard tasks run concurrently.  Their
    checksum rows are pairwise distinct, so the checksum table comes out the
    same whichever task runs first, and the model computes it shard by shard.
    The mission list does depend on timing: each task appends its markers
    when its payload has been decoded, so the list is in completion order,
    which is an input of the model.  Unlike the icon tags, a shard's checksum
    is written as soon as its payload has been fetched, before it is
    decompressed, parsed or stored. */
module MarkerStore {
  import opened Common
  import opened Database
  import KeyedTable
  import Schedule

  const Kind: string := "marker"
  const ChecksumPrefix: string := Kind + "-"

  /** `marker-${index}`. */
  function ChecksumKey(index: nat): string { ShardKey(Kind, index) }

  /** What one call of `_updateMarkerInfo` contributes: nothing (checksum
      unchanged), the decoded markers for the mission list, or a rejection. */
  datatype ShardResult = Skipped | Loaded(rows: seq<MarkerVo>) | ShardFailed

  /** `_updateMarkerInfo(index, newMd5)` on the checksum table. */
  function UpdateMarkerInfo(md5: map<string, string>, index: nat, newMd5: string, response: Fetch<MarkerVo>)
    : (r: (map<string, string>, ShardResult))
    // same checksum: no fetch, no write
    ensures Lookup(md5, ChecksumKey(index)) == Some(newMd5) ==> r == (md5, Skipped)
    ensures Lookup(md5, ChecksumKey(index)) != Some(newMd5) ==>
      // a failed fetch writes nothing
      && (response.FetchFailed? ==> r == (md5, ShardFailed))
      // a fetched payload commits the checksum whether or not it then decodes
      && (!response.FetchFailed? ==> r.0 == md5[ChecksumKey(index) := newMd5])
      && (response.DecodeFailed? ==> r.1 == ShardFailed)
      && (response.Decoded? ==> r.1 == Loaded(response.rows))
  {
    if Lookup(md5, ChecksumKey(index)) == Some(newMd5) then (md5, Skipped)
    else
      match response
      case FetchFailed => (md5, ShardFailed)
      case DecodeFailed => (md5[ChecksumKey(index) := newMd5], ShardFailed)
      case Decoded(rows) => (md5[ChecksumKey(index) := newMd5], Loaded(rows))
  }

  /** The checksum row of shard `i` (counting from 0), if any. */
  function StoredChecksum(md5: map<string, string>, i: nat): Option<string> {
    Lookup(md5, ChecksumKey(i + 1))
  }

  /** Shard `i` (counting from 0) differs from what the table last recorded. */
  predicate Changed(md5: map<string, string>, list: seq<string>, i: nat)
    requires i < |list|
  {
    StoredChecksum(md5, i) != Some(list[i])
  }

  /** The checksum rows of the first `n` shards. */
  function ShardRows(n: nat): set<string> {
    set index | 1 <= index <= n :: ChecksumKey(index)
  }

  /** The checksum rows of the first two shards. */
  lemma ShardRowsTwo(k: string)
    requires k in ShardRows(2)
    ensures k == ChecksumKey(1) || k == ChecksumKey(2)
  {
  }

  /** Distinct shards have distinct checksum rows. */
  lemma ChecksumKeysDistinct(a: nat, b: nat)
    requires a != b
    ensures ChecksumKey(a) != ChecksumKey(b)
  {
    if ChecksumKey(a) == ChecksumKey(b) { ShardKeyInjective(Kind, a, b); }
  }

  /** Every changed shard among the first `n` was fetched and decoded. */
  predicate AllDecoded(md5: map<string, string>, list: seq<string>, respond: nat -> Fetch<MarkerVo>, n: nat)
    requires n <= |list|
  {
    forall i :: 0 <= i < n && Changed(md5, list, i) ==> respond(i + 1).Decoded?
  }

  /** The checksum table after the first `n` shards ran: a changed shard whose
      payload arrived has its new checksum, every other row is as before. */
  ghost predicate CommittedAs(before: map<string, string>, after: map<string, string>,
                              list: seq<string>, respond: nat -> Fetch<MarkerVo>, n: nat)
    requires n <= |list|
  {
    && (forall i :: 0 <= i < n ==>
          StoredChecksum(after, i)
          == if Changed(before, list, i) && !respond(i + 1).FetchFailed? then Some(list[i])
             else StoredChecksum(before, i))
    && (forall k :: k !in ShardRows(n) ==> Lookup(after, k) == Lookup(before, k))
  }

  /** `Promise.all(md5List.map((_, i) => _updateMarkerInfo(i + 1, md5List[i])))`
      over the first `n` shards: the checksum table afterwards and whether
      every task resolved. */
  function SyncShards(md5: map<string, string>, list: seq<string>, respond: nat -> Fetch<MarkerVo>, n: nat)
    : (r: (map<string, string>, bool))
    requires n <= |list|
    ensures r.1 <==> AllDecoded(md5, list, respond, n)
    ensures CommittedAs(md5, r.0, list, respond, n)
  {
    if n == 0 then (md5, true)
    else
      var (t, ok) := SyncShards(md5, list, respond, n - 1);
      SyncShardsStep(md5, t, list, respond, n);
      var (t', res) := UpdateMarkerInfo(t, n, list[n - 1], respond(n));
      match res
      case Skipped => (t', ok)
      case Loaded(_) => (t', ok)
      case ShardFailed =>
        assert Changed(md5, list, n - 1) && !respond(n).Decoded?;
        (t', false)
  }

  /** Running shard `n` after the first `n - 1`: it reads the checksum it had
      before the refresh began, since the rows written so far belong to other
      shards, and its own write keeps the table in the committed shape. */
  lemma SyncShardsStep(md5: map<string, string>, t: map<string, string>, list: seq<string>,
                       respond: nat -> Fetch<MarkerVo>, n: nat)
    requires 0 < n <= |list|
    requires CommittedAs(md5, t, list, respond, n - 1)
    ensures StoredChecksum(t, n - 1) == StoredChecksum(md5, n - 1)
    ensures CommittedAs(md5, UpdateMarkerInfo(t, n, list[n - 1], respond(n)).0, list, respond, n)
  {
    assert ChecksumKey(n) !in ShardRows(n - 1) by {
      if ChecksumKey(n) in ShardRows(n - 1) {
        var index :| 1 <= index <= n - 1 && ChecksumKey(index) == ChecksumKey(n);
        ChecksumKeysDistinct(index, n);
      }
    }
    var t' := UpdateMarkerInfo(t, n, list[n - 1], respond(n)).0;
    forall i | 0 <= i < n - 1 ensures StoredChecksum(t', i) == StoredChecksum(t, i) {
      ChecksumKeysDistinct(i + 1, n);
    }
    forall k | k !in ShardRows(n) ensures Lookup(t', k) == Lookup(md5, k) {
      assert k !in ShardRows(n - 1);
      assert k != ChecksumKey(n);
    }
  }

  /** When no shard changed the shard tasks fetch and write nothing. */
  lemma {:induction false} NothingChangedSyncsNothing(md5: map<string, string>, list: seq<string>,
                                                     respond: nat -> Fetch<MarkerVo>, n: nat)
    requires n <= |list|
    requires forall i :: 0 <= i < n ==> !Changed(md5, list, i)
    ensures SyncShards(md5, list, respond, n) == (md5, true)
  {
    if n > 0 {
      NothingChangedSyncsNothing(md5, list, respond, n - 1);
    }
  }

  /** The markers shard number `index` (counting from 1) appends to the
      mission list: its decoded rows when it changed, nothing otherwise. */
  function Block(md5: map<string, string>, list: seq<string>, respond: nat -> Fetch<MarkerVo>, index: nat)
    : (rows: seq<MarkerVo>)
    ensures rows != [] ==>
      && 1 <= index <= |list| && Changed(md5, list, index - 1)
      && respond(index).Decoded? && rows == respond(index).rows
  {
    if 1 <= index <= |list| && Changed(md5, list, index - 1) && respond(index).Decoded? then respond(index).rows
    else []
  }

  /** The order in which the `n` shard tasks finished: every shard number
      from 1 to `n`, once each. */
  predicate IsCompletionOrder(order: seq<nat>, n: nat) {
    && |order| == n
    && (forall k :: k in order ==> 1 <= k <= n)
    && (forall k :: 1 <= k <= n ==> k in order)
  }

  /** The mission list after the shard tasks in `order` finished, each appending
      its block in turn. */
  function Missions(md5: map<string, string>, list: seq<string>, respond: nat -> Fetch<MarkerVo>, order: seq<nat>)
    : seq<MarkerVo>
  {
    if order == [] then []
    else Missions(md5, list, respond, order[..|order| - 1]) + Block(md5, list, respond, order[|order| - 1])
  }

  /** A marker is in the mission list exactly when one of the finished tasks
      appended it. */
  lemma {:induction false} MissionsMembers(md5: map<string, string>, list: seq<string>, respond: nat -> Fetch<MarkerVo>,
                                           order: seq<nat>, x: MarkerVo)
    ensures x in Missions(md5, list, respond, order) <==>
      exists j :: 0 <= j < |order| && x in Block(md5, list, respond, order[j])
  {
    if order != [] {
      var front := order[..|order| - 1];
      MissionsMembers(md5, list, respond, front, x);
      if x in Missions(md5, list, respond, order) {
        if x in Missions(md5, list, respond, front) {
          var j :| 0 <= j < |front| && x in Block(md5, list, respond, front[j]);
          assert order[j] == front[j];
        }
      } else {
        forall j | 0 <= j < |order| ensures x !in Block(md5, list, respond, order[j]) {
          if j < |front| { assert order[j] == front[j]; }
        }
      }
    }
  }

  /** Whatever the completion order, the mission list holds exactly the
      decoded markers of the changed shards. */
  lemma MissionsFromChangedShards(md5: map<string, string>, list: seq<string>, respond: nat -> Fetch<MarkerVo>,
                                  order: seq<nat>, x: MarkerVo)
    requires IsCompletionOrder(order, |list|)
    ensures x in Missions(md5, list, respond, order) <==>
      exists i :: 0 <= i < |list| && Changed(md5, list, i) && respond(i + 1).Decoded? && x in respond(i + 1).rows
  {
    MissionsMembers(md5, list, respond, order, x);
    if x in Missions(md5, list, respond, order) {
      var j :| 0 <= j < |order| && x in Block(md5, list, respond, order[j]);
      var i := order[j] - 1;
      assert Changed(md5, list, i) && respond(i + 1).Decoded? && x in respond(i + 1).rows;
    }
    if exists i :: 0 <= i < |list| && Changed(md5, list, i) && respond(i + 1).Decoded? && x in respond(i + 1).rows {
      var i :| 0 <= i < |list| && Changed(md5, list, i) && respond(i + 1).Decoded? && x in respond(i + 1).rows;
      assert i + 1 in order;
      var j :| 0 <= j < |order| && order[j] == i + 1;
      assert x in Block(md5, list, respond, order[j]);
    }
  }

  /** Two tasks finishing one after the other. */
  lemma MissionsTwo(md5: map<string, string>, list: seq<string>, respond: nat -> Fetch<MarkerVo>, a: nat, b: nat)
    ensures Missions(md5, list, respond, [a, b]) == Block(md5, list, respond, a) + Block(md5, list, respond, b)
  {
    assert [a, b][..1] == [a];
    assert [a][..0] == [];
    assert Missions(md5, list, respond, [a]) == Block(md5, list, respond, a);
  }

  /** When no shard changed, no task appends anything. */
  lemma {:induction false} NothingChangedNoMissions(md5: map<string, string>, list: seq<string>,
                                                    respond: nat -> Fetch<MarkerVo>, order: seq<nat>)
    requires forall i :: 0 <= i < |list| ==> !Changed(md5, list, i)
    ensures Missions(md5, list, respond, order) == []
  {
    if order != [] {
      NothingChangedNoMissions(md5, list, respond, order[..|order| - 1]);
      assert Block(md5, list, respond, order[|order| - 1]) == [];
    }
  }

  /** The module-level state of the store besides the tables. */
  datatype Flags = Flags(loading: bool, missions: seq<MarkerVo>, timers: Schedule.Timers)

  /** `updateAll`: fetch the MD5 list (`None` when that request fails), run
      the shard tasks, and when all of them resolved upsert the mission list
      in one transaction, which rejects as a whole when `putFails`.  Errors
      are caught and reported; the mission list is emptied and `loading`
      lowered on every path. */
  function UpdateAll(db: Db, flags: Flags, md5List: Option<seq<string>>, respond: nat -> Fetch<MarkerVo>,
                     completion: seq<nat>, putFails: bool, noticeDataUpdated: bool): (r: (Db, Flags, Notice))
    requires md5List.Some? ==> IsCompletionOrder(completion, |md5List.value|)
    ensures !r.1.loading && r.1.missions == [] && r.1.timers == flags.timers
    ensures r.0.iconTag == db.iconTag
    // no local marker is ever deleted
    ensures db.marker.Keys <= r.0.marker.Keys
    ensures md5List.None? ==> r.0 == db && r.2 == ErrorNotice
    ensures md5List.Some? ==>
      var list := md5List.value;
      var missions := Missions(db.md5, list, respond, completion);
      // the checksums are committed even when the refresh then fails
      && CommittedAs(db.md5, r.0.md5, list, respond, |list|)
      && (r.2.ErrorNotice? <==> !AllDecoded(db.md5, list, respond, |list|) || putFails)
      && (r.2.ErrorNotice? ==> r.0.marker == db.marker)
      && (!r.2.ErrorNotice? ==> KeyedTable.IsUpsert(db.marker, r.0.marker, missions, MarkerId))
      && (r.2.SuccessNotice? <==> noticeDataUpdated && AllDecoded(db.md5, list, respond, |list|) && !putFails)
      && (r.2.SuccessNotice? ==> r.2.count == |missions|)
  {
    var cleared := flags.(missions := [], loading := false);
    match md5List
    case None => (db, cleared, ErrorNotice)
    case Some(list) =>
      var (md5, ok) := SyncShards(db.md5, list, respond, |list|);
      if !ok || putFails then (db.(md5 := md5), cleared, ErrorNotice)
      else
        var missions := Missions(db.md5, list, respond, completion);
        var markers := KeyedTable.BulkPut(db.marker, missions, MarkerId);
        (db.(md5 := md5, marker := markers), cleared, if noticeDataUpdated then SuccessNotice(|missions|) else NoNotice)
  }

  /** Both shards of the duplicate-id example are new and decode. */
  function DuplicateShards(): (respond: nat -> Fetch<MarkerVo>) {
    (index: nat) => Decoded(if index == 1 then [MarkerVo(7, "one")] else [MarkerVo(7, "two")])
  }

  /** When one marker id is in two changed shards, the table keeps the row of
      the shard that finished last: the same snapshot can leave different
      markers behind depending on timing. */
  lemma CompletionOrderDecidesDuplicate(db: Db, flags: Flags)
    requires db.md5 == map[]
    ensures IsCompletionOrder([1, 2], 2) && IsCompletionOrder([2, 1], 2)
    ensures var table := UpdateAll(db, flags, Some(["a", "b"]), DuplicateShards(), [1, 2], false, false).0.marker;
      7 in table && table[7] == MarkerVo(7, "two")
    ensures var table := UpdateAll(db, flags, Some(["a", "b"]), DuplicateShards(), [2, 1], false, false).0.marker;
      7 in table && table[7] == MarkerVo(7, "one")
  {
    DuplicateMissions(db.md5);
    DuplicateOrder(db, flags, [1, 2], MarkerVo(7, "one"), MarkerVo(7, "two"));
    DuplicateOrder(db, flags, [2, 1], MarkerVo(7, "two"), MarkerVo(7, "one"));
  }

  /** One completion order of the duplicate-id example: the row of the shard
      whose task finished second is the one stored. */
  lemma DuplicateOrder(db: Db, flags: Flags, completion: seq<nat>, first: MarkerVo, second: MarkerVo)
    requires IsCompletionOrder(completion, 2)
    requires AllDecoded(db.md5, ["a", "b"], DuplicateShards(), 2)
    requires Missions(db.md5, ["a", "b"], DuplicateShards(), completion) == [first, second]
    requires first.id == second.id
    ensures var table := UpdateAll(db, flags, Some(["a", "b"]), DuplicateShards(), completion, false, false).0.marker;
      second.id in table && table[second.id] == second
  {
    assert KeyedTable.LastWith([first, second], MarkerId, 1);
  }

  /** The two mission lists of the duplicate-id example. */
  lemma DuplicateMissions(md5: map<string, string>)
    requires md5 == map[]
    ensures AllDecoded(md5, ["a", "b"], DuplicateShards(), 2)
    ensures IsCompletionOrder([1, 2], 2) && IsCompletionOrder([2, 1], 2)
    ensures Missions(md5, ["a", "b"], DuplicateShards(), [1, 2]) == [MarkerVo(7, "one"), MarkerVo(7, "two")]
    ensures Missions(md5, ["a", "b"], DuplicateShards(), [2, 1]) == [MarkerVo(7, "two"), MarkerVo(7, "one")]
  {
    var respond := DuplicateShards();
    var list := ["a", "b"];
    assert StoredChecksum(md5, 0) == None && StoredChecksum(md5, 1) == None;
    assert Block(md5, list, respond, 1) == [MarkerVo(7, "one")];
    assert Block(md5, list, respond, 2) == [MarkerVo(7, "two")];
    MissionsTwo(md5, list, respond, 1, 2);
    MissionsTwo(md5, list, respond, 2, 1);
  }

  /** After a successful refresh every shard's checksum row holds the remote
      checksum it was compared against. */
  lemma SuccessRecordsEveryChecksum(db: Db, flags: Flags, list: seq<string>, respond: nat -> Fetch<MarkerVo>,
                                    completion: seq<nat>, putFails: bool, notice: bool)
    requires IsCompletionOrder(completion, |list|)
    requires AllDecoded(db.md5, list, respond, |list|)
    ensures forall i :: 0 <= i < |list| ==>
      StoredChecksum(UpdateAll(db, flags, Some(list), respond, completion, putFails, notice).0.md5, i) == Some(list[i])
  {
    var db1 := UpdateAll(db, flags, Some(list), respond, completion, putFails, notice).0;
    forall i | 0 <= i < |list| ensures StoredChecksum(db1.md5, i) == Some(list[i]) {
      if Changed(db.md5, list, i) {
        assert respond(i + 1).Decoded?;
      }
    }
  }

  /** Re-running a successful refresh against the same MD5 list fetches
      nothing and leaves both tables unchanged, whatever the shards would
      now return. */
  lemma SecondRefreshIsNoOp(db: Db, flags: Flags, list: seq<string>, respond: nat -> Fetch<MarkerVo>,
                            completion: seq<nat>, notice: bool,
                            again: nat -> Fetch<MarkerVo>, completion2: seq<nat>, putFails2: bool)
    requires IsCompletionOrder(completion, |list|) && IsCompletionOrder(completion2, |list|)
    requires !UpdateAll(db, flags, Some(list), respond, completion, false, notice).2.ErrorNotice?
    ensures var (db1, flags1, _) := UpdateAll(db, flags, Some(list), respond, completion, false, notice);
      var (db2, _, notice2) := UpdateAll(db1, flags1, Some(list), again, completion2, putFails2, notice);
      db2.md5 == db1.md5 && db2.marker == db1.marker
      && (!putFails2 ==> notice2 != ErrorNotice && (notice2.SuccessNotice? ==> notice2.count == 0))
  {
    var (db1, flags1, _) := UpdateAll(db, flags, Some(list), respond, completion, false, notice);
    SuccessRecordsEveryChecksum(db, flags, list, respond, completion, false, notice);
    NothingChangedSyncsNothing(db1.md5, list, again, |list|);
    NothingChangedNoMissions(db1.md5, list, again, completion2);
    KeyedTable.BulkPutNothing(db1.marker, MarkerId);
  }

  /** A rejected marker transaction loses the snapshot: the table keeps its
      old rows, yet every checksum is already committed, so a later refresh
      against the same MD5 list fetches nothing and the missed markers are
      not written until the remote checksums change. */
  lemma FailedPutLosesMarkers(db: Db, flags: Flags, list: seq<string>, respond: nat -> Fetch<MarkerVo>,
                              completion: seq<nat>, notice: bool, again: nat -> Fetch<MarkerVo>, completion2: seq<nat>)
    requires IsCompletionOrder(completion, |list|) && IsCompletionOrder(completion2, |list|)
    requires AllDecoded(db.md5, list, respond, |list|)
    ensures var (db1, flags1, notice1) := UpdateAll(db, flags, Some(list), respond, completion, true, notice);
      && notice1 == ErrorNotice
      && db1.marker == db.marker
      && (forall i :: 0 <= i < |list| ==> StoredChecksum(db1.md5, i) == Some(list[i]))
      && UpdateAll(db1, flags1, Some(list), again, completion2, false, notice).0 == db1
  {
    var (db1, flags1, _) := UpdateAll(db, flags, Some(list), respond, completion, true, notice);
    SuccessRecordsEveryChecksum(db, flags, list, respond, completion, true, notice);
    NothingChangedSyncsNothing(db1.md5, list, again, |list|);
    NothingChangedNoMissions(db1.md5, list, again, completion2);
    KeyedTable.BulkPutNothing(db1.marker, MarkerId);
  }

  /** A shard that fetches but fails to decode still commits its checksum:
      the refresh fails, its markers are not stored, and every later refresh
      against the same checksum skips the shard. */
  lemma DecodeFailureCommitsChecksum(db: Db, flags: Flags, list: seq<string>, respond: nat -> Fetch<MarkerVo>,
                                     completion: seq<nat>, putFails: bool, notice: bool, i: nat, later: Fetch<MarkerVo>)
    requires IsCompletionOrder(completion, |list|)
    requires i < |list| && Changed(db.md5, list, i) && respond(i + 1).DecodeFailed?
    ensures var (db1, _, notice1) := UpdateAll(db, flags, Some(list), respond, completion, putFails, notice);
      && notice1 == ErrorNotice
      && db1.marker == db.marker
      && Lookup(db1.md5, ChecksumKey(i + 1)) == Some(list[i])
      && UpdateMarkerInfo(db1.md5, i + 1, list[i], later) == (db1.md5, Skipped)
  {
  }

  /** Two shards where only the second changed: remote checksums
      `["a1", "b2"]` against stored `["a1", "old"]` fetch only shard 2, its
      markers are upserted, and the checksum rows become `["a1", "b2"]`,
      whichever shard task finishes first. */
  lemma TwoShardScenario(respond: nat -> Fetch<MarkerVo>, marker: map<int, MarkerVo>, flags: Flags, completion: seq<nat>)
    requires respond(2).Decoded? && IsCompletionOrder(completion, 2)
    ensures var db := Db(map[ChecksumKey(1) := "a1", ChecksumKey(2) := "old"], map[], marker);
      var (db1, _, notice) := UpdateAll(db, flags, Some(["a1", "b2"]), respond, completion, false, true);
      && notice == SuccessNotice(|respond(2).rows|)
      && db1.md5 == map[ChecksumKey(1) := "a1", ChecksumKey(2) := "b2"]
      && KeyedTable.IsUpsert(marker, db1.marker, respond(2).rows, MarkerId)
  {
    var before := map[ChecksumKey(1) := "a1", ChecksumKey(2) := "old"];
    var list := ["a1", "b2"];
    ScenarioShards(before, list, respond, completion);
    var db := Db(before, map[], marker);
    var r := UpdateAll(db, flags, Some(list), respond, completion, false, true);
    ScenarioTable(before, r.0.md5, list, respond);
  }

  /** In the scenario only the second shard changed, and it decodes. */
  lemma ScenarioShards(before: map<string, string>, list: seq<string>, respond: nat -> Fetch<MarkerVo>, completion: seq<nat>)
    requires before == map[ChecksumKey(1) := "a1", ChecksumKey(2) := "old"] && list == ["a1", "b2"]
    requires respond(2).Decoded? && IsCompletionOrder(completion, 2)
    ensures !Changed(before, list, 0) && Changed(before, list, 1)
    ensures AllDecoded(before, list, respond, 2)
    ensures Missions(before, list, respond, completion) == respond(2).rows
  {
    ChecksumKeysDistinct(1, 2);
    assert StoredChecksum(before, 0) == Some("a1");
    assert StoredChecksum(before, 1) == Some("old");
    forall i | 0 <= i < 2 && Changed(before, list, i) ensures respond(i + 1).Decoded? {
      assert i == 1;
    }
    assert Block(before, list, respond, 1) == [] && Block(before, list, respond, 2) == respond(2).rows;
    assert 1 in completion && 2 in completion;
    assert completion == [completion[0], completion[1]];
    MissionsTwo(before, list, respond, completion[0], completion[1]);
  }

  /** The scenario's checksum table after the refresh. */
  lemma ScenarioTable(before: map<string, string>, after: map<string, string>, list: seq<string>, respond: nat -> Fetch<MarkerVo>)
    requires before == map[ChecksumKey(1) := "a1", ChecksumKey(2) := "old"] && list == ["a1", "b2"]
    requires !Changed(before, list, 0) && Changed(before, list, 1) && respond(2).Decoded?
    requires CommittedAs(before, after, list, respond, 2)
    ensures after == map[ChecksumKey(1) := "a1", ChecksumKey(2) := "b2"]
  {
    ChecksumKeysDistinct(1, 2);
    var expected := map[ChecksumKey(1) := "a1", ChecksumKey(2) := "b2"];
    assert StoredChecksum(after, 0) == Some("a1");
    assert StoredChecksum(after, 1) == Some("b2");
    forall k | k in after ensures k in expected {
      if k !in ShardRows(2) {
        assert Lookup(after, k) == Lookup(before, k);
      } else {
        ShardRowsTwo(k);
      }
    }
  }

  /** `clearAll`: empty the marker table, then drop exactly the checksum
      rows whose id starts with `marker-`.  A rejected step is swallowed, and
      `loading` is lowered on every path. */
  function ClearAll(db: Db, flags: Flags, fault: ClearFault): (r: (Db, Flags))
    ensures r.0.iconTag == db.iconTag
    ensures !r.1.loading && r.1.missions == flags.missions && r.1.timers == flags.timers
    // a rejected table clear changes nothing
    ensures fault == TableClearFails ==> r.0 == db
    // once the table clear succeeded the table is empty
    ensures fault != TableClearFails ==> r.0.marker == map[]
    // a rejected checksum deletion keeps every checksum row
    ensures fault == ChecksumDeleteFails ==> r.0.md5 == db.md5
    ensures fault == ClearSucceeds ==>
      && (forall k :: k in r.0.md5 <==> k in db.md5 && !StartsWith(k, ChecksumPrefix))
      && (forall k :: k in r.0.md5 ==> r.0.md5[k] == db.md5[k])
  {
    var cleared := flags.(loading := false);
    match fault
    case TableClearFails => (db, cleared)
    case ChecksumDeleteFails => (db.(marker := map[]), cleared)
    case ClearSucceeds => (db.(marker := map[], md5 := KeyedTable.DeletePrefixed(db.md5, ChecksumPrefix)), cleared)
  }

  /** The marker clear never touches a checksum row outside its prefix, the
      icon tags' row `iconTag-0` included, whether or not a step rejects; a
      complete clear drops every shard row. */
  lemma ClearAllIsScoped(db: Db, flags: Flags, fault: ClearFault, key: string, shard: nat)
    requires !StartsWith(key, ChecksumPrefix)
    ensures key in db.md5 ==> key in ClearAll(db, flags, fault).0.md5 && ClearAll(db, flags, fault).0.md5[key] == db.md5[key]
    ensures fault == ClearSucceeds ==> ChecksumKey(shard) !in ClearAll(db, flags, fault).0.md5
    ensures ShardKey("iconTag", 0) in db.md5 ==>
      && ShardKey("iconTag", 0) in ClearAll(db, flags, fault).0.md5
      && ClearAll(db, flags, fault).0.md5[ShardKey("iconTag", 0)] == db.md5[ShardKey("iconTag", 0)]
  {
    FirstCharExcludesPrefix(ShardKey("iconTag", 0), ChecksumPrefix);
  }

  /** A rejected checksum deletion strands the store: the marker table is
      empty but every shard checksum remains, so a refresh against the same
      MD5 list fetches nothing and leaves the table empty. */
  lemma FailedChecksumDeleteStrandsMarkers(db: Db, flags: Flags, list: seq<string>, again: nat -> Fetch<MarkerVo>,
                                           completion: seq<nat>, notice: bool)
    requires IsCompletionOrder(completion, |list|)
    requires forall i :: 0 <= i < |list| ==> !Changed(db.md5, list, i)
    ensures var (db1, flags1) := ClearAll(db, flags, ChecksumDeleteFails);
      && db1.marker == map[]
      && UpdateAll(db1, flags1, Some(list), again, completion, false, notice).0 == db1
  {
    var (db1, flags1) := ClearAll(db, flags, ChecksumDeleteFails);
    NothingChangedSyncsNothing(db1.md5, list, again, |list|);
    NothingChangedNoMissions(db1.md5, list, again, completion);
    KeyedTable.BulkPutNothing(db1.marker, MarkerId);
  }

  /** `clearBackgroundUpdate`. */
  function ClearBackgroundUpdate(flags: Flags): (r: Flags)
    ensures r.timers.pending.None? && r.loading == flags.loading && r.missions == flags.missions
    ensures Schedule.Valid(flags.timers) ==> Schedule.Valid(r.timers) && r.timers.armed == {}
  {
    flags.(timers := Schedule.Cancel(flags.timers))
  }

  /** `backgroundUpdate(immediate)`: cancel the waiting timer if any, refresh
      only when `immediate`, then arm one new timer due an interval after
      `now`.  The call is taken as one step; `ReCreateDuringTimerRefreshLeaks`
      shows what a second call during the refresh does. */
  function BackgroundUpdate(db: Db, flags: Flags, immediate: bool, md5List: Option<seq<string>>,
                            respond: nat -> Fetch<MarkerVo>, completion: seq<nat>, putFails: bool,
                            noticeDataUpdated: bool, now: int, autoUpdateInterval: Option<int>): (r: (Db, Flags, Notice))
    requires immediate && md5List.Some? ==> IsCompletionOrder(completion, |md5List.value|)
    ensures immediate ==> r.0 == UpdateAll(db, flags, md5List, respond, completion, putFails, noticeDataUpdated).0
    ensures !immediate ==> r.0 == db && r.2 == NoNotice && r.1.missions == flags.missions
    ensures Schedule.Valid(flags.timers) ==> Schedule.Valid(r.1.timers) && |r.1.timers.armed| == 1
    ensures Schedule.RestTime(r.1.timers, now) == Schedule.Interval(autoUpdateInterval)
  {
    var begun := BeginBackgroundUpdate(flags);
    var (db1, flags1, notice) :=
      if immediate then UpdateAll(db, begun, md5List, respond, completion, putFails, noticeDataUpdated)
      else (db, begun, NoNotice);
    (db1, FinishBackgroundUpdate(flags1, now, autoUpdateInterval), notice)
  }

  /** The part of `backgroundUpdate` before it awaits the refresh. */
  function BeginBackgroundUpdate(flags: Flags): Flags {
    flags.(timers := Schedule.Begin(flags.timers))
  }

  /** The part of `backgroundUpdate` after the refresh: arm the next timer. */
  function FinishBackgroundUpdate(flags: Flags, now: int, autoUpdateInterval: Option<int>): Flags {
    flags.(timers := Schedule.Arm(flags.timers, now, autoUpdateInterval))
  }

  /** `reCreateBackgroundUpdate`: postpone the next refresh after a manual
      one. Nothing is fetched now; one timer is left waiting, due an interval
      after `now`. */
  function ReCreateBackgroundUpdate(db: Db, flags: Flags, now: int, autoUpdateInterval: Option<int>): (r: (Db, Flags))
    ensures r.0 == db
    ensures Schedule.Valid(flags.timers) ==> Schedule.Valid(r.1.timers) && |r.1.timers.armed| == 1
    ensures Schedule.RestTime(r.1.timers, now) == Schedule.Interval(autoUpdateInterval)
    ensures r.1.loading == flags.loading
  {
    var (db1, flags1, _) :=
      BackgroundUpdate(db, ClearBackgroundUpdate(flags), false, None, _ => FetchFailed, [], false, false, now,
                       autoUpdateInterval);
    (db1, flags1)
  }

  /** A timer fires and its refresh is still running when a manual refresh
      reschedules with `reCreateBackgroundUpdate`: the slot is empty at that
      moment, so nothing is cancelled, and when the timer's refresh finishes
      it arms a second timer.  Two timers are then armed, beyond what the
      slot tracks, and from then on every interval starts two refreshes. */
  lemma ReCreateDuringTimerRefreshLeaks(db: Db, flags: Flags, id: nat, nowA: int, nowB: int,
                                        autoUpdateInterval: Option<int>)
    requires Schedule.Valid(flags.timers) && id in flags.timers.armed
    ensures var inFlight := BeginBackgroundUpdate(flags.(timers := Schedule.Fire(flags.timers, id)));
      var (_, rescheduled) := ReCreateBackgroundUpdate(db, inFlight, nowA, autoUpdateInterval);
      var after := FinishBackgroundUpdate(rescheduled, nowB, autoUpdateInterval).timers;
      |after.armed| == 2 && !Schedule.Valid(after)
  {
    var inFlight := BeginBackgroundUpdate(flags.(timers := Schedule.Fire(flags.timers, id)));
    var (_, rescheduled) := ReCreateBackgroundUpdate(db, inFlight, nowA, autoUpdateInterval);
    assert rescheduled.timers.pending.Some?;
    Schedule.ArmingWithoutCancelLeaks(rescheduled.timers, nowB, autoUpdateInterval);
  }

  /** From the leaked state, `clearBackgroundUpdate` cancels the timer the
      slot names and nothing else: the timer armed by the recreate stays
      armed with nothing left that could cancel it. */
  lemma ClearAfterReCreateLeavesTimer(db: Db, flags: Flags, id: nat, nowA: int, nowB: int,
                                      autoUpdateInterval: Option<int>)
    requires Schedule.Valid(flags.timers) && id in flags.timers.armed
    ensures var inFlight := BeginBackgroundUpdate(flags.(timers := Schedule.Fire(flags.timers, id)));
      var (_, rescheduled) := ReCreateBackgroundUpdate(db, inFlight, nowA, autoUpdateInterval);
      var cleared := ClearBackgroundUpdate(FinishBackgroundUpdate(rescheduled, nowB, autoUpdateInterval)).timers;
      && cleared.pending.None?
      && cleared.armed == {rescheduled.timers.pending.value}
      && !Schedule.Valid(cleared)
  {
    var inFlight := BeginBackgroundUpdate(flags.(timers := Schedule.Fire(flags.timers, id)));
    var (_, rescheduled) := ReCreateBackgroundUpdate(db, inFlight, nowA, autoUpdateInterval);
    var t := rescheduled.timers;
    assert t.armed == {t.pending.value};
    var armedAgain := FinishBackgroundUpdate(rescheduled, nowB, autoUpdateInterval).timers;
    assert armedAgain.armed == {t.pending.value, t.nextId};
  }

  /** Timer `id` fires: its callback empties the slot and runs an immediate
      background update, which leaves exactly one timer waiting again. */
  function OnTimer(db: Db, flags: Flags, id: nat, md5List: Option<seq<string>>, respond: nat -> Fetch<MarkerVo>,
                   completion: seq<nat>, putFails: bool, noticeDataUpdated: bool,
                   now: int, autoUpdateInterval: Option<int>): (r: (Db, Flags, Notice))
    requires id in flags.timers.armed
    requires md5List.Some? ==> IsCompletionOrder(completion, |md5List.value|)
    ensures r.0 == UpdateAll(db, flags, md5List, respond, completion, putFails, noticeDataUpdated).0
    ensures Schedule.Valid(flags.timers) ==> Schedule.Valid(r.1.timers) && |r.1.timers.armed| == 1 && id !in r.1.timers.armed
  {
    BackgroundUpdate(db, flags.(timers := Schedule.Fire(flags.timers, id)), true, md5List, respond,
                     completion, putFails, noticeDataUpdated, now, autoUpdateInterval)
  }
}

=== FILE: navigation_guard.dfy ===
/** `beforeEachGuard` as a pure decision: from the token, the target route
    and the user record to a navigation result plus the side effects the
    guard triggers on the way. */
module NavigationGuard {
  import opened Common

  /** The pages whose entry or exit starts the preload mission. */
  const PreloadPaths: seq<string> := ["/map", "/map-v2"]
  const MapPath: string := "/map"

  /** The target route: its path and the answers of the white-list and
      permission-list checks for it. */
  datatype Target = Target(path: string, whitelisted: bool, permitted: bool)

  /** The user store as the guard reads it: whether the token validates, the
      cached user id and the id in the authentication data. */
  datatype User = User(tokenValid: bool, infoId: Option<int>, authUserId: Option<int>)

  /** `next('/map')`, `next(true)` and `next(false)`. */
  datatype Nav = Redirect(path: string) | Proceed | Cancel

  /** The error message shown before a cancel. */
  datatype Refusal = InvalidToken | RouteMissing | NoPermission

  datatype Effects = Effects(
    createRefreshTimer: bool,
    logout: bool,
    updateUserInfo: bool,
    preload: bool,
    error: Option<Refusal>)

  datatype Decision = Decision(nav: Nav, effects: Effects)

  /** `!info.id`: an absent id or id 0. */
  predicate Falsy(id: Option<int>) {
    id.None? || id.value == 0
  }

  /** The guard. `routes` are the paths of the router's route table. */
  function BeforeEach(fromPath: string, to: Target, routes: seq<string>, user: User): (d: Decision)
    // the refresh timer is started iff the token is valid, whatever the outcome
    ensures d.effects.createRefreshTimer == user.tokenValid
    // white-listed pages: signed-in users go to the map, others pass, nothing else happens
    ensures to.whitelisted ==>
      && d.nav == (if user.tokenValid then Redirect(MapPath) else Proceed)
      && !d.effects.logout && !d.effects.updateUserInfo && !d.effects.preload && d.effects.error.None?
    // an invalid token on any other page logs out and cancels
    ensures d.effects.logout <==> !to.whitelisted && !user.tokenValid
    ensures !to.whitelisted && !user.tokenValid ==> d.nav == Cancel && d.effects.error == Some(InvalidToken)
    // a route missing from the table cancels, before permission is asked
    ensures !to.whitelisted && user.tokenValid && to.path !in routes ==>
      d.nav == Cancel && d.effects.error == Some(RouteMissing)
    ensures !to.whitelisted && user.tokenValid && to.path in routes && !to.permitted ==>
      d.nav == Cancel && d.effects.error == Some(NoPermission)
    // the allow path
    ensures !to.whitelisted && user.tokenValid && to.path in routes && to.permitted ==>
      && d.nav == Proceed && d.effects.error.None?
      && (d.effects.updateUserInfo <==> Falsy(user.infoId) || user.infoId != user.authUserId)
      && (d.effects.preload <==> fromPath in PreloadPaths || to.path in PreloadPaths)
    // the user record is refreshed and preloading runs only on the allow path
    ensures d.effects.updateUserInfo || d.effects.preload ==> d.nav == Proceed && !to.whitelisted
  {
    var timer := user.tokenValid;
    var quiet := Effects(timer, false, false, false, None);
    if to.whitelisted then
      Decision(if user.tokenValid then Redirect(MapPath) else Proceed, quiet)
    else if !user.tokenValid then
      Decision(Cancel, quiet.(logout := true, error := Some(InvalidToken)))
    else if to.path !in routes then
      Decision(Cancel, quiet.(error := Some(RouteMissing)))
    else if !to.permitted then
      Decision(Cancel, quiet.(error := Some(NoPermission)))
    else
      var refresh := Falsy(user.infoId) || user.infoId != user.authUserId;
      var preload := fromPath in PreloadPaths || to.path in PreloadPaths;
      Decision(Proceed, quiet.(updateUserInfo := refresh, preload := preload))
  }

  /** Reference form of the policy: a navigation goes ahead exactly for a
      white-listed page without a session, or for a known, permitted page
      with one. */
  lemma ProceedsIff(fromPath: string, to: Target, routes: seq<string>, user: User)
    ensures BeforeEach(fromPath, to, routes, user).nav == Proceed <==>
      (to.whitelisted && !user.tokenValid)
      || (!to.whitelisted && user.tokenValid && to.path in routes && to.permitted)
  {
  }

  /** A guard never redirects anywhere but to the map, and only signed-in
      users on white-listed pages. */
  lemma RedirectsOnlyToMap(fromPath: string, to: Target, routes: seq<string>, user: User)
    ensures BeforeEach(fromPath, to, routes, user).nav.Redirect? <==> to.whitelisted && user.tokenValid
    ensures BeforeEach(fromPath, to, routes, user).nav.Redirect? ==> BeforeEach(fromPath, to, routes, user).nav.path == MapPath
  {
  }

  /** The permission answer is irrelevant when the route does not exist: the
      existence check comes first. */
  lemma PermissionAfterExistence(fromPath: string, to: Target, routes: seq<string>, user: User)
    requires to.path !in routes
    ensures BeforeEach(fromPath, to.(permitted := true), routes, user) == BeforeEach(fromPath, to.(permitted := false), routes, user)
  {
  }

  /** Every cancel comes with exactly one error message, and only a cancel
      does. */
  lemma CancelCarriesError(fromPath: string, to: Target, routes: seq<string>, user: User)
    ensures BeforeEach(fromPath, to, routes, user).nav == Cancel <==> BeforeEach(fromPath, to, routes, user).effects.error.Some?
  {
  }
}

=== FILE: overlays.dfy ===
/** `getOverlaysFrom`: one bitmap layer per normal overlay, with visibility
    driven by the overlay settings and the top item of each overlay group. */
module Overlays {

  /** An overlay group; in a non-`multiple` group only the top item shows. */
  datatype Group = Group(id: int, multiple: bool)

  /** A map point, before or after projection. */
  datatype Point = Point(x: real, y: real)

  /** An `OverlayChunk`: `id` is its rendering in the layer id, `bounds` its
      two corners `[[xmin, ymin], [xmax, ymax]]`. */
  datatype Overlay = Overlay(id: string, group: Group, itemId: int, low: Point, high: Point, url: string)

  /** The map settings and overlay store fields the layers read. */
  datatype Settings = Settings(
    showOverlay: bool,
    showOverlayMask: bool,
    hiddenOverlayGroups: set<int>,
    topOverlayInGroup: map<int, int>)

  datatype Color = Color(r: int, g: int, b: int)

  const Conspicuous: Color := Color(255, 255, 255)
  const Inconspicuous: Color := Color(128, 128, 128)
  const NoMask: Color := Color(200, 200, 200)

  /** The overlay's item is the top item of its group (an absent entry matches
      no item). */
  predicate IsTop(st: Settings, o: Overlay) {
    o.group.id in st.topOverlayInGroup && st.topOverlayInGroup[o.group.id] == o.itemId
  }

  /** `isOverlayVisible`. */
  predicate IsOverlayVisible(st: Settings, o: Overlay): (visible: bool)
    // each of the three tests can hide the overlay on its own
    ensures !st.showOverlay ==> !visible
    ensures o.group.id in st.hiddenOverlayGroups ==> !visible
    ensures !o.group.multiple && !IsTop(st, o) ==> !visible
    // an overlay that passes all three is shown
    ensures st.showOverlay && o.group.id !in st.hiddenOverlayGroups && (o.group.multiple || IsTop(st, o)) ==> visible
  {
    if !st.showOverlay then false
    else if o.group.id in st.hiddenOverlayGroups then false
    else if !o.group.multiple && !IsTop(st, o) then false
    else true
  }

  /** `getTintColor`. */
  function TintColor(st: Settings, o: Overlay): (c: Color)
    ensures IsTop(st, o) <==> c == Conspicuous
    ensures !IsTop(st, o) ==> (c == Inconspicuous <==> st.showOverlayMask)
    ensures c in {Conspicuous, Inconspicuous, NoMask}
  {
    if IsTop(st, o) then Conspicuous
    else if st.showOverlayMask then Inconspicuous
    else NoMask
  }

  /** With overlays switched off nothing shows. */
  lemma OverlaysOffHidesAll(st: Settings, o: Overlay)
    requires !st.showOverlay
    ensures !IsOverlayVisible(st, o)
  {
  }

  /** An overlay of a hidden group never shows. */
  lemma HiddenGroupHidesOverlay(st: Settings, o: Overlay)
    requires o.group.id in st.hiddenOverlayGroups
    ensures !IsOverlayVisible(st, o)
  {
  }

  /** In a `multiple` group an overlay shows exactly when overlays are on and
      the group is not hidden; in any other group it shows exactly when, in
      addition, its item is the group's top item. */
  lemma VisibilityCharacterised(st: Settings, o: Overlay)
    ensures o.group.multiple ==>
      (IsOverlayVisible(st, o) <==> st.showOverlay && o.group.id !in st.hiddenOverlayGroups)
    ensures !o.group.multiple ==>
      (IsOverlayVisible(st, o) <==> st.showOverlay && o.group.id !in st.hiddenOverlayGroups && IsTop(st, o))
  {
  }

  /** All visible overlays of one non-`multiple` group belong to one item. */
  lemma SingleGroupShowsOneItem(st: Settings, a: Overlay, b: Overlay)
    requires a.group == b.group && !a.group.multiple
    requires IsOverlayVisible(st, a) && IsOverlayVisible(st, b)
    ensures a.itemId == b.itemId
  {
  }

  /** One `BitmapLayer`: id, `bounds` as `[left, top, right, bottom]`, image,
      opacity and tint. */
  datatype Layer = Layer(id: string, bounds: seq<real>, image: string, opacity: int, tint: Color)

  /** The layer built for one overlay; `project` is the deck's
      `projectCoord`, applied to both corners. */
  function LayerFor(targetId: string, st: Settings, project: Point -> Point, o: Overlay): (l: Layer)
    ensures l.id == targetId + "-overlay-" + o.id
    ensures l.opacity == 1 <==> IsOverlayVisible(st, o)
    ensures l.opacity == 0 <==> !IsOverlayVisible(st, o)
    ensures l.tint == TintColor(st, o) && l.image == o.url
    ensures |l.bounds| == 4
    ensures l.bounds[0] == project(o.low).x && l.bounds[2] == project(o.high).x
    ensures l.bounds[1] == project(o.high).y && l.bounds[3] == project(o.low).y
  {
    var lo := project(o.low);
    var hi := project(o.high);
    Layer(targetId + "-overlay-" + o.id, [lo.x, hi.y, hi.x, lo.y], o.url,
          if IsOverlayVisible(st, o) then 1 else 0, TintColor(st, o))
  }

  /** The `normalOverlays.reduce` that pushes one layer per overlay. */
  method GetOverlaysFrom(targetId: string, st: Settings, project: Point -> Point, overlays: seq<Overlay>)
    returns (layers: seq<Layer>)
    ensures |layers| == |overlays|
    ensures forall i :: 0 <= i < |overlays| ==> layers[i] == LayerFor(targetId, st, project, overlays[i])
  {
    layers := [];
    var i := 0;
    while i < |overlays|
      invariant i <= |overlays| && |layers| == i
      invariant forall j :: 0 <= j < i ==> layers[j] == LayerFor(targetId, st, project, overlays[j])
    {
      layers := layers + [LayerFor(targetId, st, project, overlays[i])];
      i := i + 1;
    }
  }

  /** Overlays with distinct ids get distinct layer ids. */
  lemma LayerIdsDistinct(targetId: string, st: Settings, project: Point -> Point, a: Overlay, b: Overlay)
    requires a.id != b.id
    ensures LayerFor(targetId, st, project, a).id != LayerFor(targetId, st, project, b).id
  {
    var p := targetId + "-overlay-";
    assert (p + a.id)[|p|..] == a.id;
    assert (p + b.id)[|p|..] == b.id;
  }
}

=== FILE: request.dfy ===
/** The HTTP client's interceptors: which statuses count as success, the
    headers put on every request, and unwrapping the response body. */
module Request {
  import opened Common

  /** `validateStatus`: a status resolves the request when it is 400 or in
      [200, 300). */
  function ValidateStatus(status: int): (ok: bool)
    // stated through the status class: every 2xx status, and Bad Request
    ensures ok <==> status / 100 == 2 || status == 400
  {
    status == 400 || (status >= 200 && status < 300)
  }

  /** Concrete statuses on both sides of the boundaries. */
  lemma StatusExamples()
    ensures ValidateStatus(200) && ValidateStatus(204) && ValidateStatus(299) && ValidateStatus(400)
    ensures !ValidateStatus(199) && !ValidateStatus(300) && !ValidateStatus(401) && !ValidateStatus(500)
    ensures !ValidateStatus(304) && !ValidateStatus(404)
  {
  }

  const AuthorizationHeader: string := "Authorization"
  const ContentTypeHeader: string := "Content-Type"
  const JsonContentType: string := "application/json"

  /** The parts of an axios request config the interceptor touches. */
  datatype Config = Config(url: string, headers: Option<map<string, string>>)

  /** A token is sent only when it is truthy: present and not empty. */
  predicate Truthy(token: Option<string>) {
    token.Some? && token.value != ""
  }

  /** The request interceptor: make sure there is a headers object, add the
      bearer token when there is one, and always declare a JSON body. */
  function Intercept(config: Config, token: Option<string>): (r: Config)
    ensures r.url == config.url && r.headers.Some?
    ensures ContentTypeHeader in r.headers.value && r.headers.value[ContentTypeHeader] == JsonContentType
    ensures AuthorizationHeader in r.headers.value <==>
      Truthy(token) || (config.headers.Some? && AuthorizationHeader in config.headers.value)
    ensures Truthy(token) ==> r.headers.value[AuthorizationHeader] == "Bearer " + token.value
    // every other header the caller set is kept as it was; a missing object starts empty
    ensures forall h :: h != AuthorizationHeader && h != ContentTypeHeader ==>
      (h in r.headers.value <==> config.headers.Some? && h in config.headers.value)
    ensures forall h :: h in r.headers.value && h != AuthorizationHeader && h != ContentTypeHeader ==>
      r.headers.value[h] == config.headers.value[h]
    ensures forall h :: h in r.headers.value && h == AuthorizationHeader && !Truthy(token) ==>
      r.headers.value[h] == config.headers.value[h]
  {
    var headers := config.headers.GetOr(map[]);
    var withAuth := if Truthy(token) then headers[AuthorizationHeader := "Bearer " + token.value] else headers;
    config.(headers := Some(withAuth[ContentTypeHeader := JsonContentType]))
  }

  /** A server reply. */
  datatype Response<T> = Response(status: int, data: T)

  /** How a request settles for the caller: the body, or a rejection carrying
      the status. */
  datatype Settled<T> = Resolved(body: T) | Rejected(status: int)

  /** One round trip through both interceptors; `server` answers the
      intercepted config. */
  function Send<T>(config: Config, token: Option<string>, server: Config -> Response<T>): (r: Settled<T>)
    ensures r.Resolved? <==> ValidateStatus(server(Intercept(config, token)).status)
    ensures r.Resolved? ==> r.body == server(Intercept(config, token)).data
    ensures r.Rejected? ==> r.status == server(Intercept(config, token)).status
  {
    var response := server(Intercept(config, token));
    if ValidateStatus(response.status) then Resolved(response.data) else Rejected(response.status)
  }

  /** What a caller sees, in terms of the status ranges alone: every 2xx reply
      and Bad Request hand back the body, and every other reply rejects with
      its status. */
  lemma SendSettlesByStatus<T>(config: Config, token: Option<string>, server: Config -> Response<T>)
    ensures var response := server(Intercept(config, token));
      && (200 <= response.status < 300 || response.status == 400 ==> Send(config, token, server) == Resolved(response.data))
      && (!(200 <= response.status < 300) && response.status != 400 ==> Send(config, token, server) == Rejected(response.status))
  {
  }

  /** The request interceptor is idempotent, so a config that already went
      through it (a retried request) settles exactly as the original. */
  lemma {:induction false} InterceptIdempotent<T>(config: Config, token: Option<string>, server: Config -> Response<T>)
    ensures Intercept(Intercept(config, token), token) == Intercept(config, token)
    ensures Send(Intercept(config, token), token, server) == Send(config, token, server)
  {
    var once := Intercept(config, token).headers.value;
    var twice := Intercept(Intercept(config, token), token).headers.value;
    assert twice.Keys == once.Keys;
    assert forall h :: h in twice ==> twice[h] == once[h];
    assert twice == once;
  }
}

=== FILE: schedule.dfy ===
/** The background-update timer discipline both sync stores follow: one
    `updateTimer` slot, `clearBackgroundUpdate` cancelling it, re-arming after
    an update with an interval taken from the settings, and the rest-time
    getter.  Browser timers are identified by the ids `setTimeout` hands out. */
module Schedule {
  import opened Common

  /** Minutes between automatic updates when the setting is unset. */
  const DefaultIntervalMinutes: int := 20
  const MillisPerMinute: int := 60000

  /** `pending` is the store's `updateTimer`; `armed` are the browser timers
      this store has set and not yet cancelled or seen fire; `nextId` is the
      id the next `setTimeout` returns; `updateEnd` is when the armed timer is
      due, in milliseconds. */
  datatype Timers = Timers(pending: Option<nat>, armed: set<nat>, nextId: nat, updateEnd: Option<int>)

  /** No timers at start-up. */
  const Initial: Timers := Timers(None, {}, 0, None)

  /** The store's slot names exactly the timers that are armed: at most one
      background update is ever waiting. */
  predicate Valid(s: Timers) {
    && s.armed == (if s.pending.Some? then {s.pending.value} else {})
    && forall id :: id in s.armed ==> id < s.nextId
  }

  /** `(localSettings.autoUpdateInterval ?? 20) * 60000`: only an unset
      setting falls back to the default; zero stays zero. */
  function Interval(autoUpdateInterval: Option<int>): (ms: int)
    ensures autoUpdateInterval.None? ==> ms == 1_200_000
    ensures autoUpdateInterval.Some? ==> ms == autoUpdateInterval.value * 60_000
    ensures autoUpdateInterval == Some(0) ==> ms == 0
  {
    autoUpdateInterval.GetOr(DefaultIntervalMinutes) * MillisPerMinute
  }

  /** `clearBackgroundUpdate`: cancel the timer in the slot (cancelling
      nothing is harmless) and empty the slot. */
  function Cancel(s: Timers): (r: Timers)
    ensures r.pending == None
    ensures r.armed == s.armed - (if s.pending.Some? then {s.pending.value} else {})
    ensures r.nextId == s.nextId && r.updateEnd == s.updateEnd
    ensures Valid(s) ==> Valid(r) && r.armed == {}
  {
    match s.pending
    case None => s
    case Some(id) => s.(pending := None, armed := s.armed - {id})
  }

  /** The head of `backgroundUpdate`, up to its `await`: a timer waiting in
      the slot is cancelled. */
  function Begin(s: Timers): (r: Timers)
    ensures r.pending.None?
    ensures s.pending.None? ==> r == s
    ensures Valid(s) ==> Valid(r) && r.armed == {}
  {
    if s.pending.Some? then Cancel(s) else s
  }

  /** The tail of `backgroundUpdate`: compute the interval, record when the
      next update is due and put a fresh timer in the slot. */
  function Arm(s: Timers, now: int, autoUpdateInterval: Option<int>): (r: Timers)
    ensures r.pending == Some(s.nextId) && s.nextId in r.armed
    ensures r.updateEnd == Some(now + Interval(autoUpdateInterval))
    ensures r.nextId > s.nextId
    ensures Valid(s) && s.pending.None? ==> Valid(r) && r.armed == {s.nextId}
  {
    Timers(Some(s.nextId), s.armed + {s.nextId}, s.nextId + 1, Some(now + Interval(autoUpdateInterval)))
  }

  /** The browser runs timer `id`: it is no longer armed and its callback
      empties the slot before starting the next background update. */
  function Fire(s: Timers, id: nat): (r: Timers)
    requires id in s.armed
    ensures r.pending == None && id !in r.armed
    ensures Valid(s) ==> Valid(r) && r.armed == {}
  {
    s.(pending := None, armed := s.armed - {id})
  }

  /** `updateAllRestTime`: zero before the first timer is armed, otherwise the
      milliseconds until it is due (negative once overdue). */
  function RestTime(s: Timers, clock: int): (ms: int)
    ensures s.updateEnd.None? ==> ms == 0
    ensures s.updateEnd.Some? ==> clock + ms == s.updateEnd.value
  {
    match s.updateEnd
    case None => 0
    case Some(end) => end - clock
  }

  /** The background-update schedule restarted at `now`: whatever was
      pending is cancelled first and exactly one timer is left waiting, due
      one interval later. */
  function Rearm(s: Timers, now: int, autoUpdateInterval: Option<int>): (r: Timers)
    ensures Valid(s) ==> Valid(r) && |r.armed| == 1 && r.pending.value !in s.armed
    ensures r.pending.Some?
    ensures RestTime(r, now) == Interval(autoUpdateInterval)
  {
    Arm(Begin(s), now, autoUpdateInterval)
  }

  /** Without the cancel the old timer would stay armed beside the new one:
      two background updates would then be waiting. */
  lemma ArmingWithoutCancelLeaks(s: Timers, now: int, autoUpdateInterval: Option<int>)
    requires Valid(s) && s.pending.Some?
    ensures |Arm(s, now, autoUpdateInterval).armed| == 2
  {
    var r := Arm(s, now, autoUpdateInterval);
    assert r.armed == {s.pending.value, s.nextId};
    assert s.pending.value != s.nextId;
  }

  /** Two background updates in flight at once: both pass the slot check
      before either re-arms, so the second arms over the first one's timer.
      Two updates are then left waiting, and the slot names only one of them;
      each time they fire they start two updates again. */
  lemma OverlappingUpdatesLeak(s: Timers, nowA: int, nowB: int, autoUpdateInterval: Option<int>)
    requires Valid(s)
    ensures var r := Arm(Arm(Begin(Begin(s)), nowA, autoUpdateInterval), nowB, autoUpdateInterval);
      |r.armed| == 2 && !Valid(r)
  {
    var t := Arm(Begin(Begin(s)), nowA, autoUpdateInterval);
    ArmingWithoutCancelLeaks(t, nowB, autoUpdateInterval);
  }

  /** `clearBackgroundUpdate` cancels only the timer the slot names: after
      two overlapping updates the other one stays armed, with nothing left
      that could ever cancel it, and keeps starting updates. */
  lemma ClearAfterLeakLeavesTimer(s: Timers, nowA: int, nowB: int, autoUpdateInterval: Option<int>)
    requires Valid(s)
    ensures var leaked := Arm(Arm(Begin(Begin(s)), nowA, autoUpdateInterval), nowB, autoUpdateInterval);
      var cleared := Cancel(leaked);
      && cleared.pending.None?
      && cleared.armed == {s.nextId}
      && !Valid(cleared)
  {
    var t := Arm(Begin(Begin(s)), nowA, autoUpdateInterval);
    var leaked := Arm(t, nowB, autoUpdateInterval);
    assert t.armed == {s.nextId};
    assert leaked.armed == {s.nextId, s.nextId + 1};
  }
}
